=== FILE: README.md ===
# s57-postgis ingestion core, in Dafny

This project models the ingestion pipeline of s57-postgis. The pipeline:
- finds S-57 chart files (`.000`) under a path, in sorted order;
- opens each one through a chart reader;
- extracts one chart record and the feature records of every non-structural layer;
- maps scales to web-map zoom levels;
- replaces any earlier copy of the chart in a PostGIS store, then writes its features in batches of 1000;
- keeps per-run statistics and progress callbacks.

Every component is a pure function over immutable data.
- The GDAL dataset is a value: layers of raw features, with field values as text and geometry as opaque GeoJSON text.
- The PostgreSQL store is a value: a chart table keyed by the unique chart name, and an ordered list of feature rows.
- Every server call takes an `ok` flag that says whether the server accepts it. Per file, these flags are bundled in `Ingest.FileFaults`.
- A run over many files takes a function from the file index to that file's faults.

Modules follow the source files:

| module | models |
|---|---|
| `ZFinder` | `findZoom` and `calculateZRange` |
| `Types` | the records and the excluded-layer list |
| `JsonUtils` | `escapeString`, `toJsonObject`, `toJsonArray` |
| `JsonRead` | a reader for the JSON those builders produce; the partner of their round trips |
| `Stoi` | `std::stoi` as `getScaleRange` and `getChartInfo` use it |
| `Paths` | `filename()`, `stem()` and `extension()` of `std::filesystem::path` |
| `S57` | the record extractor |
| `Database` | the persistence gateway |
| `Ingest` | the orchestrator |

The helper modules are:
- `SortedMap`: `std::map<std::string, std::string>` as a strictly key-ordered entry list;
- `StrOrder`: byte-wise string order;
- `StrSort`: `std::sort` on strings;
- `Join`: the comma-joining loops;
- `Wrappers`: `Option`.

`findZoom` halves a `double` while it exceeds 1.0.
- `ZFinder.FindZoom` states the result in closed form: 28 minus the number of doublings of 1 needed to reach the scale.
- `ZFinder.FindZoomByHalving` runs the source's loop over `real` and is proved equal to the closed form. Halving by two is exact for every 32-bit scale, so `real` loses nothing here.
- Zoom levels are not confined to [0, 28]. A scale or scale bound above 2^28 drives `findZoom` below zero, down to -3 for the largest `int`, and `calculateZRange` passes that value on. See `ZFinder.FindZoomInt32Range`, `ZFinder.ZRangeOneBound` and `ZFinder.ZRangeCanGoNegative`.

## Model

| member | source | states |
|---|---|---|
| ZFinder.FindZoom | src/zfinder.hpp:21-29 | the zoom never exceeds 28, is 28 for scales up to 1, and is the unique z with 2^(27-z) < scale <= 2^(28-z) |
| ZFinder.FindZoomByHalving | src/zfinder.hpp:21-29 | halving the scale as a floating value while it exceeds 1.0, one zoom step per halving, gives the closed-form zoom |
| ZFinder.HalvingsUnique | src/zfinder.hpp:24-27 | the halving count is the only count whose power of two bounds the scale from above and whose predecessor does not |
| ZFinder.FindZoomDoubling | src/zfinder.hpp:21-29 | doubling a positive scale lowers the zoom by exactly one |
| ZFinder.FindZoomAntitone | src/zfinder.hpp:21-29 | a larger scale never gets a larger zoom |
| ZFinder.FindZoomExamples | src/zfinder.hpp:21-29 | scale 1 gives 28, 2 gives 27, 3 and 4 give 26, and 0 or a negative scale gives 28 |
| ZFinder.FindZoomInt32Range | src/zfinder.hpp:21-29 | for every 32-bit scale the zoom lies between -3 and 28 |
| ZFinder.CalculateZRange | src/zfinder.hpp:33-50 | the range is ordered and at most 28; its two ends are the zooms of the positive bounds, with 0 and 28 standing in for absent ones; two absent bounds give (0, 28) |
| ZFinder.ZRangeOfOrderedBounds | src/zfinder.hpp:44-47 | with 0 < scamax <= scamin the range is (findZoom(scamin), findZoom(scamax)), and swapping the bounds gives the same range |
| ZFinder.ZRangeOneBound | src/zfinder.hpp:37-47 | a lone SCAMIN keeps the maximum 28; a lone SCAMAX keeps the minimum 0, except that a negative zoom for it is swapped below the 0 |
| ZFinder.ZRangeCanGoNegative | src/zfinder.hpp:37-39 | a SCAMIN of 2^29 gives the range (-1, 28) |
| Types.DefaultFeatureZoomIsUnbounded | src/types.hpp:36-37 | a default-constructed feature has the zoom range of a feature without scale bounds |
| Types.DefaultsAreEmpty | src/types.hpp:19-48 | default chart info has no name, scale 0 and zoom 0; a default result reports failure with no chart and no features |
| JsonUtils.EscapeChar | src/json_utils.cpp:16-31 | exactly the characters other than controls, quote and backslash pass unchanged; the rest become a backslash escape; no output contains a control character |
| JsonUtils.EscapeString | src/json_utils.cpp:13-34 | the escaped text is never shorter and has no control characters; it equals the input exactly when nothing needs escaping, and is strictly longer otherwise |
| JsonUtils.EscapeConcat | src/json_utils.cpp:15-32 | escaping works per character, so it distributes over concatenation |
| JsonUtils.EscapeTable | src/json_utils.cpp:17-27 | the escape of each special character: the two-character escapes and \u00XX with lower-case hex for the other control characters |
| JsonUtils.ToJsonObject | src/json_utils.cpp:36-47 | the text is braced, and is "{}" exactly for an empty map |
| JsonUtils.ToJsonArray | src/json_utils.cpp:49-60 | the text is bracketed, and is "[]" exactly for an empty list |
| JsonRead.ReadQuotedOfQuoted | src/json_utils.cpp:43 | a quoted, escaped string reads back as the original string, leaving what follows untouched |
| JsonRead.ReadEscapedChar | src/json_utils.cpp:16-31 | reading one character's escape gives back that character, for every character |
| JsonRead.ReadUnicodeEscape | src/json_utils.cpp:25-27 | the \u00XX form decodes to the control character it was made from |
| JsonRead.ArrayRoundTrip | src/json_utils.cpp:49-60 | reading toJsonArray's text back gives exactly the input list, in order |
| JsonRead.ObjectRoundTrip | src/json_utils.cpp:36-47 | reading toJsonObject's text back gives exactly the map's entries, in key order |
| SortedMap.Find | src/s57.cpp:238 | a lookup finds a key exactly when the map holds it, and returns its value |
| SortedMap.Put | src/s57.cpp:122 | assigning through operator[] adds the key and maps it to the new value, replacing any old value, and leaves every other key alone |
| SortedMap.PutSorted | src/s57.cpp:122 | the map stays strictly ordered by key after an assignment |
| StrOrder.LessEqTotalOrder | src/ingest.cpp:73 | the string order std::sort uses is a total order |
| StrSort.Sort | src/ingest.cpp:73 | the sorted list is ascending and a permutation of the input |
| StrSort.AscendingUnique | src/ingest.cpp:73 | two ascending permutations of the same strings are equal, so the sorted order is determined by the strings alone |
| StrSort.SortIgnoresInputOrder | src/ingest.cpp:72-73 | any two listings of the same files sort to the same list |
| StrSort.SortExample | src/ingest.cpp:73 | "a.000" sorts before "a.0000", which sorts before "b.000" |
| Stoi.Stoi | src/s57.cpp:164-166 | a parsed value always fits in 32 bits |
| Stoi.ParseUnsigned | src/s57.cpp:164-166 | a digit run is read exactly when the text starts with a digit |
| Stoi.StoiOfDecimal | src/s57.cpp:249-253 | reading the decimal text of any integer, followed by a non-digit, gives the integer when it fits in 32 bits and fails otherwise |
| Stoi.StoiSkipsLeadingSpace | src/s57.cpp:164-166 | leading white space does not change the result |
| Stoi.ParseOrZero | src/s57.cpp:159-173 | the value parsed with 0 as the fallback always fits in 32 bits |
| Stoi.ParseOrZeroOfDecimal | src/s57.cpp:164-166 | every 32-bit value's decimal text reads back as that value |
| Stoi.StoiNeedsADigit | src/s57.cpp:164-166 | text without a digit after the optional sign fails, and the caller's fallback of 0 applies |
| Paths.FileName | src/ingest.cpp:80 | the file name is the part after the last '/' and contains no '/' |
| Paths.FileNameIsSuffix | src/ingest.cpp:80 | the file name is a suffix of the path, preceded by '/' whenever it is shorter than the path |
| Paths.FileNameAfterSlash | src/s57.cpp:269 | the file name of dir + "/" + name is name |
| Paths.LastDot | src/s57.cpp:243 | finds the last '.' of the name, or reports that there is none |
| Paths.Extension | src/ingest.cpp:47 | a path's extension is empty, or the suffix of its file name from the last '.', never the whole name |
| Paths.Stem | src/s57.cpp:243 | a path's stem followed by its extension is its file name |
| Paths.NameExtension | src/ingest.cpp:47 | the extension is empty, or is a suffix that starts at the last '.' and is not the whole name |
| Paths.NameStem | src/s57.cpp:243 | the stem followed by the extension is the file name |
| Paths.ExtensionIsChartSuffix | src/ingest.cpp:47 | a path has extension ".000" exactly when its file name is longer than four characters and ends in ".000" |
| Paths.PathExamples | src/s57.cpp:243 | "d/a.000" has stem "a" and extension ".000"; a dot file such as "d/.000" has no extension |
| S57.GetLayerNames | src/s57.cpp:88-100 | a closed reader lists no layer; an open one lists one name per layer, in dataset order |
| S57.NamesOf | src/s57.cpp:88-100 | the layer names come one per layer, in dataset order |
| S57.FindLayer | src/s57.cpp:183 | a found layer carries the requested name and belongs to the dataset; nothing is found only when no layer has that name |
| S57.FindLayerFirst | src/s57.cpp:294 | the lookup returns the first layer with that name |
| S57.IsExcludedLayer | src/s57.cpp:102-109 | a layer is excluded exactly when its name is one of DSID, IsolatedNode, ConnectedNode, Edge, Face |
| S57.CoverageLayerIsKept | src/types.hpp:62-68 | M_COVR and SOUNDG become features; DSID and Edge do not |
| S57.ExtractProperties | src/s57.cpp:111-127 | the value under each key is that of the last set, non-null, non-empty field with that name |
| S57.PropertiesArePresentFields | src/s57.cpp:117-125 | a key is present exactly when some field with that name has a non-empty value, and every stored value is non-empty |
| S57.FeaturePropertiesKeys | src/s57.cpp:309-326 | METERS is the only key added beyond the fields, and only for 3-D points on SOUNDG, where it holds the depth; every other key is as the fields give it |
| S57.GetScaleRange | src/s57.cpp:158-177 | the range is ordered and at most 28 |
| S57.ScaleRangeOfFields | src/s57.cpp:158-177 | a missing or unparsable SCAMIN or SCAMAX reads as 0: no readable bound gives (0, 28); a lone decimal SCAMIN gives (findZoom(SCAMIN), 28); a lone decimal SCAMAX gives (0, findZoom(SCAMAX)), swapped to (findZoom(SCAMAX), 0) when that zoom is negative; decimal bounds with 0 < SCAMAX <= SCAMIN give (findZoom(SCAMIN), findZoom(SCAMAX)) |
| S57.BuildFeature | src/s57.cpp:305-355 | the record is tagged with its layer; its geometry text is the geometry's GeoJSON, or "" without a geometry; its zoom range is getScaleRange of its properties and so is ordered; its references are the LNAM_REFS list, or none |
| S57.BuildFeatureProperties | src/s57.cpp:309-335 | the stored properties text reads back as exactly the feature's properties: each key other than METERS holds its last present field |
| S57.BuildAll | src/s57.cpp:304-357 | one record per source feature, in reading order |
| S57.GetLayerFeatures | src/s57.cpp:289-360 | every record carries the requested layer name |
| S57.LayerFeaturesShape | src/s57.cpp:289-360 | a closed reader, an excluded layer or a missing layer gives no records; otherwise one record per source feature of the layer, in order |
| S57.FeaturesOfLayersTagged | src/s57.cpp:366-374 | every collected record belongs to a listed layer that is not excluded |
| S57.GetAllFeatures | src/s57.cpp:362-377 | no record comes from an excluded layer or from a layer the dataset does not list |
| S57.AllFeaturesAreSourceRecords | src/s57.cpp:362-377 | with distinct layer names, the records are exactly one per source feature of each non-excluded layer, in layer order |
| S57.VisitAll | src/s57.cpp:386-388 | the callback sees a layer's records in order |
| S57.ProcessFeatures | src/s57.cpp:379-391 | the callback sees exactly getAllFeatures' records, in the same order |
| S57.FirstFeatureProperties | src/s57.cpp:179-211 | the properties are empty for a closed reader, a missing layer or a layer with no feature; otherwise each key holds the first feature's last present field of that name |
| S57.GetDsidProperties | src/s57.cpp:179-194 | the properties are those of the DSID layer's first feature, or none |
| S57.GetMCovrProperties | src/s57.cpp:196-211 | the properties are those of the M_COVR layer's first feature, or none |
| S57.GetCoverageGeoJson | src/s57.cpp:213-228 | when the M_COVR layer's first feature has a geometry, the text is that geometry's GeoJSON; in every other case, a closed reader included, it is "{}" |
| S57.ChartScale | src/s57.cpp:247-254 | the scale is a 32-bit value, and is 0 when DSPM_CSCL is missing |
| S57.ChartScaleOfFields | src/s57.cpp:247-254 | a 32-bit decimal DSPM_CSCL gives that value; a missing or unparsable field gives 0 |
| S57.ChartScaleWithoutDigits | src/s57.cpp:249-253 | a DSPM_CSCL of "x1" has no digit to read, so the scale falls back to 0 |
| S57.ChartZoom | src/s57.cpp:272-274 | a positive scale gives findZoom(scale); any other gives 0; the zoom lies within [-3, 28] |
| S57.GetChartInfo | src/s57.cpp:230-287 | a closed reader gives the default record. Otherwise: the name is DSNM or the file stem; the file name is that of the path; the scale is DSPM_CSCL's value, or 0; updated and issued are UADT and ISDT, or ""; the coverage is the M_COVR geometry; dsidProps and chartTxt read back as the DSID and M_COVR properties. The zoom is findZoom of a positive scale and 0 otherwise |
| Database.EscapeQuotes | src/database.cpp:154-158 | the text never shrinks and is unchanged when it has no single quote |
| Database.LnamRefsToArrayLiteral | src/database.cpp:142-163 | NULL exactly for no references; otherwise the text starts with ARRAY[ and ends with ]::varchar[] |
| Database.ReadSqlQuotedOfQuoted | src/database.cpp:154-159 | a single-quoted item with doubled quotes reads back as the original reference |
| Database.ArrayLiteralRoundTrip | src/database.cpp:142-163 | reading the literal back gives exactly the reference list, in order |
| Database.ArrayLiteralExamples | src/database.cpp:142-163 | no references give NULL; a reference a'b gives ARRAY['a''b']::varchar[] |
| Database.EmptyStore | src/database.cpp:24-54 | a fresh schema satisfies the table constraints and holds no rows |
| Database.ChartExists | src/database.cpp:231-247 | a positive answer means the chart is stored; when connected and the query succeeds, the answer is exact; disconnected or failing, the answer is false |
| Database.InsertChart | src/database.cpp:108-140 | an id comes back exactly when connected, accepted, and the name is not yet stored; the id is fresh, the chart is stored under its name, and nothing else changes; on failure the store is unchanged |
| Database.DeleteChart | src/database.cpp:249-280 | succeeds exactly when connected and accepted, including when the chart is absent; the chart is gone afterwards, along with exactly its feature rows; on failure nothing changes |
| Database.InsertFeatures | src/database.cpp:197-229 | an empty batch succeeds whenever connected; a non-empty batch succeeds exactly when accepted for an existing chart id and appends one row per feature in order, all or nothing |
| Database.InsertFeature | src/database.cpp:165-195 | succeeds exactly when connected, accepted, and the chart id exists, appending one row; on failure nothing changes |
| Database.InsertFeatureIsSingletonBatch | src/database.cpp:165-229 | inserting one feature is the same as inserting a batch of one |
| Database.InsertFeaturesPlacement | src/database.cpp:197-229 | a batch only ever adds rows under its own chart, after that chart's earlier features |
| Database.DeleteChartPlacement | src/database.cpp:268-272 | deleting a chart leaves every other chart's features as they were and none of its own |
| Database.DeleteChartIdempotent | src/database.cpp:261-264 | deleting a chart twice is the same as deleting it once |
| Database.DeleteUndoesInsert | src/database.cpp:249-280 | deleting a chart just inserted restores both tables |
| Database.GetChartCount | src/database.cpp:282-295 | the count is never negative; it is 0 exactly when the query cannot run or no chart is stored |
| Database.GetFeatureCount | src/database.cpp:297-310 | the count is never negative; it is 0 exactly when the query cannot run or no feature is stored |
| Database.CountsFollowWrites | src/database.cpp:282-310 | counts are 0 when disconnected or when the query fails; a chart insert adds one chart; a delete removes one chart and exactly its features; a batch adds its size |
| Database.WithoutChartSize | src/database.cpp:269 | deleting a chart's features removes exactly as many rows as the chart has features |
| Ingest.SetWorkerCount | src/ingest.cpp:24-26 | the worker count is at least 1 and at least the request, and is either the request or 1 |
| Ingest.WorkerCountStable | src/ingest.cpp:24-26 | setting the count twice is the same as setting it once, and a positive request is kept as it is |
| Ingest.FindS57Files | src/ingest.cpp:36-76 | the list is ascending; a missing or special path gives nothing; a regular file gives itself exactly when it is a .000 file; a directory gives a permutation of its regular .000 entries, recursively or not as asked |
| Ingest.KeptPathsPermutation | src/ingest.cpp:59-69 | listing the same entries in another order collects the same paths, up to order |
| Ingest.FindS57FilesIgnoresListingOrder | src/ingest.cpp:58-73 | the result does not depend on the order in which the file system lists a directory |
| Ingest.FindS57FilesMembers | src/ingest.cpp:58-70 | a path is found exactly when it is a regular .000 entry of the directory, recursively or not as asked |
| Ingest.InsertBatchesTakesBatches | src/ingest.cpp:129-140 | each step of the batch loop inserts the next slice of the partition, and stops at the first refused one |
| Ingest.BatchesPartition | src/ingest.cpp:128-134 | the batches joined give back all the features; every batch holds 1 to 1000 features and all but the last hold 1000; no features give no batch |
| Ingest.InsertBatchesFrom | src/ingest.cpp:129-141 | the batch loop leaves the chart table and the connection alone |
| Ingest.InsertBatchesClosedForm | src/ingest.cpp:127-141 | the loop succeeds exactly when no batch fails, and the stored rows are the features up to the first failing batch, in order |
| Ingest.BatchExample | src/ingest.cpp:127-141 | 2500 features all go in without failures; if the third batch fails, the first 2000 stay stored |
| Ingest.ReplaceExisting | src/ingest.cpp:101-107 | the check-then-delete step keeps the table constraints and the connection |
| Ingest.ReplaceExistingFrees | src/ingest.cpp:101-107 | every other chart stays; the chart's name is still taken afterwards exactly when it was stored and the server did not complete both the check and the delete |
| Ingest.ReplaceExistingKeepsOthers | src/ingest.cpp:101-107 | the features of every other chart are untouched |
| Ingest.IngestChart | src/ingest.cpp:101-143 | success exactly when there is no error message; a failure is a chart-insert or a feature-insert failure; the result names the file and the chart |
| Ingest.BatchesLandUnderNewChart | src/ingest.cpp:117-141 | after a fresh chart insert, the new chart holds the features up to the failing batch, and no other chart changes |
| Ingest.IngestChartSuccess | src/ingest.cpp:101-143 | after a success the store holds exactly one chart of that name, with this file's chart record and exactly its features in order; every other chart and its features are as before |
| Ingest.IngestChartWithoutFaults | src/ingest.cpp:101-143 | with a connected server that accepts every call, a file always succeeds |
| Ingest.ReingestKeepsChartCount | src/ingest.cpp:101-116 | a successful re-ingest of a stored chart keeps the chart count; a new chart adds one |
| Ingest.IngestChartBatchFailure | src/ingest.cpp:127-141 | a feature-insert failure leaves the chart stored with exactly the features before the failing batch, while the count reports all features |
| Ingest.IngestChartInsertFailure | src/ingest.cpp:109-115 | a refused chart insert attempts no batch, counts no feature, and leaves the store as the replace step did |
| Ingest.Extract | src/ingest.cpp:84-93 | a chart is extracted exactly when the file opens |
| Ingest.ProcessOpened | src/ingest.cpp:78-151 | the result names the file, and succeeds exactly when it carries no error. A file that does not open gives "Failed to open file" with no chart, no features and an unchanged store. An opened file's result names its chart; on success the chart is stored with exactly the extracted features, and the result counts them |
| Ingest.ProcessFile | src/ingest.cpp:78-151 | success exactly when there is no error message; the result names the file; a file GDAL cannot open leaves the store unchanged |
| Ingest.ProcessFileIngestsExtraction | src/ingest.cpp:93-120 | an opened file ingests getChartInfo's record and getAllFeatures' records |
| Ingest.RunFiles | src/ingest.cpp:153-188 | one result per file, in input order, each named after its file |
| Ingest.RunFilesStep | src/ingest.cpp:166-168 | each file is processed against the store the previous files left |
| Ingest.TotalsSnoc | src/ingest.cpp:170-180 | a new result adds one success and its features when it succeeded, and nothing otherwise |
| Ingest.Record | src/ingest.cpp:170-180 | the counters after a file are the tally of all results so far: files, successes, failures, and features of successful files |
| Ingest.CallbacksSnoc | src/ingest.cpp:182-184 | each file adds one callback carrying the files done so far, the total, and its name |
| Ingest.ProcessFiles | src/ingest.cpp:153-188 | the results and store are those of processing the files in order; the statistics count every file, with successes plus failures equal to the files and the features of successful files summed; there is one progress callback per file |
| Ingest.ProcessDirectory | src/ingest.cpp:190-198 | the files found are processed in sorted order, and the statistics count them all |

## Left out

- Opening files with GDAL, reading layers, and reprojecting geometries to GeoJSON are left out. The dataset is an input value, and a geometry is its GeoJSON text; a feature without geometry gets "".
- geometryToGeoJson and pointToGeoJson are left out: floating-point coordinate formatting is out of scope.
- The METERS value on SOUNDG points is given as text already formatted with one decimal. Formatting a `double` with `std::setprecision(1)` is left out.
- SQL text, parameter binding, the connection itself, `initSchema`, `execute`, and the transaction placeholders are left out. The store is the two tables as values. Each call's success is an input flag, because a server can refuse any statement.
- BIGSERIAL gaps after a failed insert are left out: ids are allocated only on success.
- PostGIS rejecting an invalid or empty GeoJSON geometry is not modelled separately. It is one of the refusals the `ok` flags stand for.
- The catch-all exception path in processFile is left out. Every failure the model knows reports through the three documented messages.
- The command-line front end in main.cpp is left out, and so are verbose printing and stderr messages.
- S57.FindLayer: a layer lookup matches the name exactly. GDAL's GetLayerByName also falls back to a case-insensitive match; the layer names the S-57 driver produces make that fallback unobservable here.
- The worker count is only stored: processFiles runs sequentially, as the source does.
- Ingest.ProcessFiles: the progress callback is always recorded. The model does not cover the case where no callback is set, which only suppresses the calls.
- Ingest.RunFiles: a run is stated over a function from path to what the opened file yields. Ingest.ProcessFile connects one dataset to that value through getChartInfo and getAllFeatures.
- Ingest.IngestChart: the source reads the features after inserting the chart. The reader is pure, so the model reads them up front; the order cannot be observed.
- Database.GetChartCount: its own contract says only when the count is 0. How each write changes the count is stated in Database.CountsFollowWrites.
- Database.GetFeatureCount: its own contract says only when the count is 0. How each write changes the count is stated in Database.CountsFollowWrites.
- Overflow is left out, because integers are unbounded in the model:
  - the `int` feature count and the `int` statistics counters;
  - the `int64_t` ids.

  The 32-bit range of scales and bounds is modelled through `std::stoi`'s range check.
- JsonUtils.EscapeString works on characters, not bytes. Bytes from 0x80 up are copied unchanged in the source, and characters from 0x80 up are copied unchanged in the model.

=== FILE: database.dfy ===
/** The PostGIS store as the pipeline sees it: a charts table whose names
    are unique and whose ids come from a sequence, and a features table whose
    rows reference a chart id. Every call that talks to the server takes an
    `ok` flag: false stands for the server raising an error (a lost
    connection, a rejected geometry), which the source catches and turns
    into its failure value. */
module Database {
  import opened Wrappers
  import opened Types
  import opened Join
  import JsonRead

  // ---------------------------------------------------------------------
  // The lnam_refs array literal

  /** One character inside a single-quoted SQL literal. */
  function QuoteChar(c: char): string {
    if c == '\'' then "''" else [c]
  }

  /** Doubles every single quote. */
  function EscapeQuotes(s: string): (r: string)
    ensures |r| >= |s|
    ensures '\'' !in s ==> r == s
  {
    if |s| == 0 then ""
    else
      var r := QuoteChar(s[0]) + EscapeQuotes(s[1..]);
      assert '\'' !in s ==> '\'' !in s[1..] && [s[0]] + s[1..] == s;
      r
  }

  function SqlQuoted(s: string): string {
    "'" + EscapeQuotes(s) + "'"
  }

  function SqlItems(refs: seq<string>): seq<string> {
    seq(|refs|, i requires 0 <= i < |refs| => SqlQuoted(refs[i]))
  }

  const ArrayOpen: string := "ARRAY["
  const ArrayClose: string := "]::varchar[]"

  /** lnamRefsToArrayLiteral: NULL for no references, otherwise a varchar
      array of single-quoted items. */
  function LnamRefsToArrayLiteral(refs: seq<string>): (lit: string)
    ensures |refs| == 0 <==> lit == "NULL"
    ensures |refs| > 0 ==> (|lit| > |ArrayOpen| + |ArrayClose| &&
      lit[..|ArrayOpen|] == ArrayOpen && lit[|lit| - |ArrayClose|..] == ArrayClose)
  {
    if |refs| == 0 then "NULL"
    else
      var body := Separated(SqlItems(refs));
      assert |body| >= 2 by { assert |SqlItems(refs)[0]| >= 2; }
      var lit := ArrayOpen + body + ArrayClose;
      assert lit[0] == 'A';
      assert lit[..|ArrayOpen|] == ArrayOpen;
      assert lit[|lit| - |ArrayClose|..] == ArrayClose;
      lit
  }

  /** The body of a single-quoted literal after its opening quote: a doubled
      quote is one quote, a lone quote ends the literal. */
  function ReadSqlBody(s: string): (r: Option<(string, string)>)
    ensures r.Some? ==> |r.value.1| < |s|
    decreases |s|
  {
    if |s| == 0 then None
    else if s[0] == '\'' then
      if |s| > 1 && s[1] == '\'' then JsonRead.Prepend('\'', ReadSqlBody(s[2..]))
      else Some(("", s[1..]))
    else JsonRead.Prepend(s[0], ReadSqlBody(s[1..]))
  }

  function ReadSqlQuoted(s: string): (r: Option<(string, string)>)
    ensures r.Some? ==> |r.value.1| < |s|
  {
    if |s| > 0 && s[0] == '\'' then ReadSqlBody(s[1..]) else None
  }

  /** What PostgreSQL reads back from the literal: the list of references. */
  function ReadArrayLiteral(lit: string): Option<seq<string>> {
    if lit == "NULL" then Some([])
    else if |lit| >= |ArrayOpen| && lit[..|ArrayOpen|] == ArrayOpen then ReadSqlItems(lit[|ArrayOpen|..])
    else None
  }

  function ReadSqlItems(s: string): Option<seq<string>>
    decreases |s|
  {
    match ReadSqlQuoted(s)
    case None => None
    case Some((item, rest)) =>
      if rest == ArrayClose then Some([item])
      else if |rest| > 0 && rest[0] == ',' then
        match ReadSqlItems(rest[1..])
        case None => None
        case Some(more) => Some([item] + more)
      else None
  }

  /** Quote-doubled text, its closing quote and anything not starting with
      a quote read back as the text. */
  lemma {:induction false} ReadEscapedQuotes(x: string, q: string, rest: string)
    requires q == "'" + rest
    requires |rest| == 0 || rest[0] != '\''
    ensures ReadSqlBody(EscapeQuotes(x) + q) == Some((x, rest))
    decreases |x|
  {
    if |x| == 0 {
      assert EscapeQuotes(x) + q == q;
      assert q[1..] == rest;
    } else {
      var t := EscapeQuotes(x[1..]) + q;
      assert EscapeQuotes(x) + q == QuoteChar(x[0]) + t;
      ReadEscapedQuotes(x[1..], q, rest);
      ReadQuoteChar(x[0], t);
      assert [x[0]] + x[1..] == x;
    }
  }

  /** Reading one quoted character hands back that character. */
  lemma ReadQuoteChar(c: char, t: string)
    ensures ReadSqlBody(QuoteChar(c) + t) == JsonRead.Prepend(c, ReadSqlBody(t))
  {
    var s := QuoteChar(c) + t;
    if c == '\'' {
      assert s[0] == '\'' && s[1] == '\'' && s[2..] == t;
    } else {
      assert s[0] == c && s[1..] == t;
    }
  }

  lemma ReadSqlQuotedOfQuoted(x: string, rest: string)
    requires |rest| == 0 || rest[0] != '\''
    ensures ReadSqlQuoted(SqlQuoted(x) + rest) == Some((x, rest))
  {
    var s := SqlQuoted(x) + rest;
    assert s[1..] == EscapeQuotes(x) + ("'" + rest);
    ReadEscapedQuotes(x, "'" + rest, rest);
  }

  lemma ReadSqlItemsStep(s: string, item: string, tail: string)
    requires ReadSqlQuoted(s) == Some((item, tail))
    ensures ReadSqlItems(s) ==
      if tail == ArrayClose then Some([item])
      else if |tail| > 0 && tail[0] == ',' then
        match ReadSqlItems(tail[1..])
        case None => None
        case Some(more) => Some([item] + more)
      else None
  {
  }

  lemma SqlItemsCons(refs: seq<string>)
    requires |refs| > 0
    ensures SqlItems(refs)[0] == SqlQuoted(refs[0])
    ensures SqlItems(refs)[1..] == SqlItems(refs[1..])
  {
  }

  lemma {:induction false} ReadSqlItemsOfSeparated(refs: seq<string>)
    requires |refs| > 0
    ensures ReadSqlItems(Separated(SqlItems(refs)) + ArrayClose) == Some(refs)
    decreases |refs|
  {
    var parts := SqlItems(refs);
    SqlItemsCons(refs);
    SeparatedCons(parts, ArrayClose);
    var tail := CommaPrefixed(parts[1..]) + ArrayClose;
    assert tail[0] == ']' || tail[0] == ',';
    ReadSqlQuotedOfQuoted(refs[0], tail);
    ReadSqlItemsStep(Separated(parts) + ArrayClose, refs[0], tail);
    if |refs| == 1 {
      assert refs == [refs[0]];
    } else {
      ReadSqlItemsOfSeparated(refs[1..]);
      assert [refs[0]] + refs[1..] == refs;
    }
  }

  /** The literal the feature INSERT splices in denotes exactly the feature's
      reference list, quotes included, in order. */
  lemma ArrayLiteralRoundTrip(refs: seq<string>)
    ensures ReadArrayLiteral(LnamRefsToArrayLiteral(refs)) == Some(refs)
  {
    if |refs| > 0 {
      var body := Separated(SqlItems(refs));
      var lit := LnamRefsToArrayLiteral(refs);
      assert lit == ArrayOpen + (body + ArrayClose);
      assert lit[|ArrayOpen|..] == body + ArrayClose;
      ReadSqlItemsOfSeparated(refs);
    }
  }

  lemma ArrayLiteralExamples()
    ensures LnamRefsToArrayLiteral([]) == "NULL"
    ensures LnamRefsToArrayLiteral(["a'b"]) == "ARRAY['a''b']::varchar[]"
  {
    var items := SqlItems(["a'b"]);
    assert |items| == 1 && items[0] == "'a''b'" by { SqlQuotedExample(); }
    assert Separated(items) == "'a''b'" by {
      assert CommaPrefixed(items[1..]) == "";
      assert items[0] + "" == items[0];
    }
  }

  lemma SqlQuotedExample()
    ensures SqlQuoted("a'b") == "'a''b'"
  {
    assert EscapeQuotes("a'b") == "a''b" by {
      assert "a'b"[1..] == "'b" && "'b"[1..] == "b" && "b"[1..] == "";
    }
  }

  // ---------------------------------------------------------------------
  // The tables

  datatype ChartRow = ChartRow(id: int, info: ChartInfo)

  datatype FeatureRow = FeatureRow(chartId: int, feature: Feature)

  /** Server state: whether the connection is open, the charts table keyed
      by its UNIQUE name, the features table in insertion order, and the
      next value of the charts id sequence. */
  datatype Store = Store(connected: bool, charts: map<string, ChartRow>, features: seq<FeatureRow>, nextId: int)

  /** The outcome of one call: what it returns and the state it leaves. */
  datatype Outcome<T> = Outcome(value: T, store: Store)

  function ChartIds(s: Store): set<int> {
    set n | n in s.charts :: s.charts[n].id
  }

  /** The schema's constraints: rows sit under their own name, ids are
      distinct and below the sequence, features reference existing charts. */
  predicate Valid(s: Store) {
    && s.nextId >= 1
    && (forall n :: n in s.charts ==> s.charts[n].info.name == n && 1 <= s.charts[n].id < s.nextId)
    && (forall n, m :: n in s.charts && m in s.charts && n != m ==> s.charts[n].id != s.charts[m].id)
    && (forall i :: 0 <= i < |s.features| ==> s.features[i].chartId in ChartIds(s))
  }

  /** A freshly initialised schema. */
  function EmptyStore(connected: bool): (s: Store)
    ensures Valid(s) && |s.charts| == 0 && |s.features| == 0
  {
    Store(connected, map[], [], 1)
  }

  /** The features stored under one chart id, in insertion order. */
  function ChartFeatures(rows: seq<FeatureRow>, id: int): seq<Feature> {
    if |rows| == 0 then []
    else (if rows[0].chartId == id then [rows[0].feature] else []) + ChartFeatures(rows[1..], id)
  }

  /** The rows one feature batch adds. */
  function Rows(id: int, fs: seq<Feature>): (rows: seq<FeatureRow>)
    ensures |rows| == |fs|
    ensures forall i :: 0 <= i < |fs| ==> rows[i] == FeatureRow(id, fs[i])
  {
    seq(|fs|, i requires 0 <= i < |fs| => FeatureRow(id, fs[i]))
  }

  /** DELETE FROM features WHERE chart_id = id. */
  function WithoutChart(rows: seq<FeatureRow>, id: int): (kept: seq<FeatureRow>)
    ensures forall i :: 0 <= i < |kept| ==> kept[i].chartId != id
    ensures forall row :: row in kept <==> row in rows && row.chartId != id
  {
    if |rows| == 0 then []
    else
      var tail := WithoutChart(rows[1..], id);
      assert forall row :: row in rows <==> row == rows[0] || row in rows[1..];
      if rows[0].chartId == id then tail else [rows[0]] + tail
  }

  lemma {:induction false} ChartFeaturesAppend(a: seq<FeatureRow>, b: seq<FeatureRow>, id: int)
    ensures ChartFeatures(a + b, id) == ChartFeatures(a, id) + ChartFeatures(b, id)
    decreases |a|
  {
    if |a| == 0 {
      assert a + b == b;
    } else {
      var head := if a[0].chartId == id then [a[0].feature] else [];
      assert (a + b)[0] == a[0] && (a + b)[1..] == a[1..] + b;
      assert ChartFeatures(a + b, id) == head + ChartFeatures(a[1..] + b, id);
      ChartFeaturesAppend(a[1..], b, id);
      assert head + (ChartFeatures(a[1..], id) + ChartFeatures(b, id)) ==
             (head + ChartFeatures(a[1..], id)) + ChartFeatures(b, id);
    }
  }

  /** A batch's rows hold exactly its features under its own id, and
      nothing under any other. */
  lemma {:induction false} ChartFeaturesOfRows(id: int, fs: seq<Feature>, other: int)
    requires other != id
    ensures ChartFeatures(Rows(id, fs), id) == fs
    ensures ChartFeatures(Rows(id, fs), other) == []
    decreases |fs|
  {
    if |fs| > 0 {
      assert Rows(id, fs)[1..] == Rows(id, fs[1..]);
      ChartFeaturesOfRows(id, fs[1..], other);
      assert [fs[0]] + fs[1..] == fs;
    }
  }

  /** Deleting one chart's rows leaves none of it and every other chart's
      rows as they were. */
  lemma {:induction false} ChartFeaturesWithout(rows: seq<FeatureRow>, id: int, other: int)
    requires other != id
    ensures ChartFeatures(WithoutChart(rows, id), id) == []
    ensures ChartFeatures(WithoutChart(rows, id), other) == ChartFeatures(rows, other)
    decreases |rows|
  {
    if |rows| > 0 {
      ChartFeaturesWithout(rows[1..], id, other);
      var tail := WithoutChart(rows[1..], id);
      if rows[0].chartId != id {
        assert ([rows[0]] + tail)[1..] == tail;
      }
    }
  }

  /** An id no row references has no features. */
  lemma {:induction false} ChartFeaturesAbsent(rows: seq<FeatureRow>, id: int)
    requires forall i :: 0 <= i < |rows| ==> rows[i].chartId != id
    ensures ChartFeatures(rows, id) == []
    ensures WithoutChart(rows, id) == rows
    decreases |rows|
  {
    if |rows| > 0 {
      ChartFeaturesAbsent(rows[1..], id);
      assert [rows[0]] + rows[1..] == rows;
    }
  }

  // ---------------------------------------------------------------------
  // The calls

  /** chartExists. */
  function ChartExists(s: Store, name: string, ok: bool): (found: bool)
    ensures found ==> name in s.charts
    ensures s.connected && ok ==> (found <==> name in s.charts)
    ensures !(s.connected && ok) ==> !found
  {
    s.connected && ok && name in s.charts
  }

  /** insertChart: a new row with the next sequence value, or nothing when
      disconnected, when the server fails, or when the name is taken. */
  function InsertChart(s: Store, info: ChartInfo, ok: bool): (r: Outcome<Option<int>>)
    requires Valid(s)
    ensures Valid(r.store)
    ensures r.value.Some? <==> s.connected && ok && info.name !in s.charts
    ensures r.value.None? ==> r.store == s
    ensures r.value.Some? ==>
      r.value.value !in ChartIds(s) &&
      r.store.charts == s.charts[info.name := ChartRow(r.value.value, info)] &&
      r.store.features == s.features && r.store.connected == s.connected
  {
    if !s.connected || !ok || info.name in s.charts then Outcome(None, s)
    else
      var id := s.nextId;
      var s' := s.(charts := s.charts[info.name := ChartRow(id, info)], nextId := id + 1);
      assert ChartIds(s) <= ChartIds(s') by {
        forall x | x in ChartIds(s) ensures x in ChartIds(s') {
          var n :| n in s.charts && s.charts[n].id == x;
          assert n in s'.charts && s'.charts[n] == s.charts[n];
        }
      }
      Outcome(Some(id), s')
  }

  /** deleteChart: removes the named chart and its features; a missing
      chart is a success that changes nothing. */
  function DeleteChart(s: Store, name: string, ok: bool): (r: Outcome<bool>)
    requires Valid(s)
    ensures Valid(r.store)
    ensures r.value <==> s.connected && ok
    ensures !r.value || name !in s.charts ==> r.store == s
    ensures r.value ==> name !in r.store.charts && r.store.charts == s.charts - {name}
    ensures r.value && name in s.charts ==>
      r.store.features == WithoutChart(s.features, s.charts[name].id)
  {
    if !s.connected || !ok then Outcome(false, s)
    else if name !in s.charts then Outcome(true, s)
    else
      var id := s.charts[name].id;
      var s' := s.(charts := s.charts - {name}, features := WithoutChart(s.features, id));
      assert forall i :: 0 <= i < |s'.features| ==> s'.features[i].chartId in ChartIds(s') by {
        forall i | 0 <= i < |s'.features| ensures s'.features[i].chartId in ChartIds(s') {
          var row := s'.features[i];
          assert row in s.features;
          var j :| 0 <= j < |s.features| && s.features[j] == row;
          assert row.chartId in ChartIds(s);
          var n :| n in s.charts && s.charts[n].id == row.chartId;
          assert n != name;
          assert n in s'.charts;
        }
      }
      Outcome(true, s')
  }

  /** insertFeatures: the whole batch in one transaction. An empty batch is
      a success without a round trip; a server error or a chart id that
      violates the foreign key rolls back every row. */
  function InsertFeatures(s: Store, chartId: int, fs: seq<Feature>, ok: bool): (r: Outcome<bool>)
    requires Valid(s)
    ensures Valid(r.store)
    ensures r.value <==> s.connected && (|fs| == 0 || (ok && chartId in ChartIds(s)))
    ensures !r.value ==> r.store == s
    ensures r.value ==> r.store == s.(features := s.features + Rows(chartId, fs))
  {
    if !s.connected then Outcome(false, s)
    else if |fs| == 0 then
      assert s.features + Rows(chartId, fs) == s.features;
      Outcome(true, s)
    else if !ok || chartId !in ChartIds(s) then Outcome(false, s)
    else Outcome(true, s.(features := s.features + Rows(chartId, fs)))
  }

  /** insertFeature: one row in its own transaction. */
  function InsertFeature(s: Store, chartId: int, f: Feature, ok: bool): (r: Outcome<bool>)
    requires Valid(s)
    ensures Valid(r.store)
    ensures r.value <==> s.connected && ok && chartId in ChartIds(s)
    ensures !r.value ==> r.store == s
    ensures r.value ==> r.store == s.(features := s.features + [FeatureRow(chartId, f)])
  {
    if !s.connected || !ok || chartId !in ChartIds(s) then Outcome(false, s)
    else Outcome(true, s.(features := s.features + [FeatureRow(chartId, f)]))
  }

  /** A single-row insert stores the same row as a one-element batch. */
  lemma InsertFeatureIsSingletonBatch(s: Store, chartId: int, f: Feature, ok: bool)
    requires Valid(s)
    ensures InsertFeature(s, chartId, f, ok) == InsertFeatures(s, chartId, [f], ok)
  {
    assert Rows(chartId, [f]) == [FeatureRow(chartId, f)];
  }

  /** getChartCount: the row count, 0 when the query cannot run. */
  function GetChartCount(s: Store, ok: bool): (n: int)
    ensures n >= 0
    ensures !(s.connected && ok) ==> n == 0
    ensures n == 0 <==> !(s.connected && ok) || s.charts == map[]
  {
    if s.connected && ok then |s.charts| else 0
  }

  /** getFeatureCount: the row count, 0 when the query cannot run. */
  function GetFeatureCount(s: Store, ok: bool): (n: int)
    ensures n >= 0
    ensures !(s.connected && ok) ==> n == 0
    ensures n == 0 <==> !(s.connected && ok) || s.features == []
  {
    if s.connected && ok then |s.features| else 0
  }

  /** A batch lands under its chart after what was there, and leaves every
      other chart's features untouched. */
  lemma InsertFeaturesPlacement(s: Store, chartId: int, fs: seq<Feature>, ok: bool, other: int)
    requires Valid(s) && other != chartId
    ensures var r := InsertFeatures(s, chartId, fs, ok);
      ChartFeatures(r.store.features, other) == ChartFeatures(s.features, other) &&
      (r.value ==> ChartFeatures(r.store.features, chartId) == ChartFeatures(s.features, chartId) + fs)
  {
    ChartFeaturesAppend(s.features, Rows(chartId, fs), chartId);
    ChartFeaturesAppend(s.features, Rows(chartId, fs), other);
    ChartFeaturesOfRows(chartId, fs, other);
  }

  /** Deleting a chart drops all of its features and no other chart's. */
  lemma DeleteChartPlacement(s: Store, name: string, ok: bool, other: int)
    requires Valid(s) && name in s.charts && other != s.charts[name].id
    ensures var r := DeleteChart(s, name, ok);
      ChartFeatures(r.store.features, other) == ChartFeatures(s.features, other) &&
      (r.value ==> ChartFeatures(r.store.features, s.charts[name].id) == [])
  {
    ChartFeaturesWithout(s.features, s.charts[name].id, other);
  }

  /** Deleting is idempotent: the second delete succeeds and changes nothing. */
  lemma DeleteChartIdempotent(s: Store, name: string)
    requires Valid(s)
    ensures var r := DeleteChart(s, name, true);
      DeleteChart(r.store, name, true) == Outcome(r.value, r.store)
  {
  }

  /** deleteChart undoes insertChart: the tables are back as they were. */
  lemma DeleteUndoesInsert(s: Store, info: ChartInfo)
    requires Valid(s)
    ensures var i := InsertChart(s, info, true);
      i.value.Some? ==>
        var d := DeleteChart(i.store, info.name, true);
        d.value && d.store.charts == s.charts && d.store.features == s.features
  {
    var i := InsertChart(s, info, true);
    if i.value.Some? {
      var id := i.value.value;
      assert forall k :: 0 <= k < |s.features| ==> s.features[k].chartId != id;
      ChartFeaturesAbsent(s.features, id);
      assert i.store.charts - {info.name} == s.charts;
    }
  }

  /** The counts follow the writes: a chart insert adds one chart, deleting
      a stored chart removes one chart and its features, a batch adds one
      feature row per feature; a failed query reads as 0. */
  lemma CountsFollowWrites(s: Store, info: ChartInfo, name: string, chartId: int, fs: seq<Feature>)
    requires Valid(s)
    ensures !s.connected ==> GetChartCount(s, true) == 0 && GetFeatureCount(s, true) == 0
    ensures GetChartCount(s, false) == 0 && GetFeatureCount(s, false) == 0
    ensures var i := InsertChart(s, info, true);
      i.value.Some? ==> GetChartCount(i.store, true) == GetChartCount(s, true) + 1 &&
                        GetFeatureCount(i.store, true) == GetFeatureCount(s, true)
    ensures var d := DeleteChart(s, name, true);
      d.value && name in s.charts ==>
        GetChartCount(d.store, true) == GetChartCount(s, true) - 1 &&
        GetFeatureCount(d.store, true) == GetFeatureCount(s, true) - |ChartFeatures(s.features, s.charts[name].id)|
    ensures var b := InsertFeatures(s, chartId, fs, true);
      b.value ==> GetChartCount(b.store, true) == GetChartCount(s, true) &&
                  GetFeatureCount(b.store, true) == GetFeatureCount(s, true) + |fs|
  {
    var d := DeleteChart(s, name, true);
    if d.value && name in s.charts {
      WithoutChartSize(s.features, s.charts[name].id);
    }
  }

  /** Deleting one chart's rows removes exactly as many rows as it had. */
  lemma {:induction false} WithoutChartSize(rows: seq<FeatureRow>, id: int)
    ensures |WithoutChart(rows, id)| + |ChartFeatures(rows, id)| == |rows|
    decreases |rows|
  {
    if |rows| > 0 {
      WithoutChartSize(rows[1..], id);
    }
  }
}

=== FILE: ingest.dfy ===
/** The ingestion orchestrator: find the chart files under a path, and for
    each file open it, replace any earlier copy of its chart, insert the
    chart and its features in batches of 1000, and keep per-run counters.
    The file system, the GDAL open and the server's failures are inputs:
    an FsView; a dataset per file (or, for a whole run, a `read` function
    from path to what the opened file yields); and a FileFaults value per
    file. */
module Ingest {
  import opened Wrappers
  import opened Types
  import opened S57
  import opened Database
  import opened StrSort
  import Paths

  // ---------------------------------------------------------------------
  // Configuration

  /** setWorkerCount: std::max(1, count). */
  function SetWorkerCount(count: int): (workers: int)
    ensures workers >= 1 && workers >= count
    ensures workers == count || workers == 1
  {
    if count < 1 then 1 else count
  }

  /** Any count that is already a valid setting is kept, so setting the
      result again changes nothing. */
  lemma WorkerCountStable(count: int)
    ensures SetWorkerCount(SetWorkerCount(count)) == SetWorkerCount(count)
    ensures count >= 1 <==> SetWorkerCount(count) == count
  {
  }

  // ---------------------------------------------------------------------
  // Discovery

  datatype PathKind = NotFound | Regular | Dir | Special

  datatype DirEntry = DirEntry(path: string, isRegular: bool)

  /** What std::filesystem reports for the input path: its kind and, for a
      directory, the entries the plain and the recursive directory iterator
      yield, in whatever order the file system lists them. */
  datatype FsView = FsView(kind: PathKind, entries: seq<DirEntry>, allEntries: seq<DirEntry>)

  predicate IsChartFile(path: string) {
    Paths.Extension(path) == ".000"
  }

  predicate IsChartEntry(e: DirEntry) {
    e.isRegular && IsChartFile(e.path)
  }

  /** The paths of the entries `keep` accepts, in listing order. */
  function KeptPaths(entries: seq<DirEntry>, keep: DirEntry -> bool): seq<string> {
    if |entries| == 0 then []
    else (if keep(entries[0]) then [entries[0].path] else []) + KeptPaths(entries[1..], keep)
  }

  /** The paths of the regular `.000` entries, in listing order. */
  function ChartPaths(entries: seq<DirEntry>): seq<string> {
    KeptPaths(entries, IsChartEntry)
  }

  /** findS57Files. */
  function FindS57Files(path: string, view: FsView, recursive: bool): (files: seq<string>)
    ensures Ascending(files)
    ensures view.kind == NotFound || view.kind == Special ==> files == []
    ensures view.kind == Regular ==> files == if IsChartFile(path) then [path] else []
    ensures view.kind == Dir ==>
      multiset(files) == multiset(ChartPaths(if recursive then view.allEntries else view.entries))
  {
    match view.kind
    case NotFound => []
    case Regular => if IsChartFile(path) then [path] else []
    case Special => []
    case Dir => Sort(ChartPaths(if recursive then view.allEntries else view.entries))
  }

  /** A listed path is kept exactly when `keep` accepts its entry. */
  lemma {:induction false} KeptPathsMembers(entries: seq<DirEntry>, keep: DirEntry -> bool, p: string)
    ensures p in KeptPaths(entries, keep) <==> exists e :: e in entries && keep(e) && e.path == p
    decreases |entries|
  {
    if |entries| > 0 {
      KeptPathsMembers(entries[1..], keep, p);
      assert forall e :: e in entries <==> e == entries[0] || e in entries[1..];
    }
  }

  lemma {:induction false} KeptPathsAppend(a: seq<DirEntry>, b: seq<DirEntry>, keep: DirEntry -> bool)
    ensures KeptPaths(a + b, keep) == KeptPaths(a, keep) + KeptPaths(b, keep)
    decreases |a|
  {
    if |a| == 0 {
      assert a + b == b;
    } else {
      assert (a + b)[0] == a[0];
      assert (a + b)[1..] == a[1..] + b;
      KeptPathsAppend(a[1..], b, keep);
    }
  }

  /** Taking out the element at k leaves the rest of the multiset. */
  lemma SplitAt<T>(b: seq<T>, k: nat)
    requires k < |b|
    ensures b == b[..k] + ([b[k]] + b[k + 1..])
    ensures multiset(b[..k] + b[k + 1..]) == multiset(b) - multiset{b[k]}
  {
    assert b == b[..k] + ([b[k]] + b[k + 1..]);
    assert multiset(b) == multiset(b[..k]) + multiset{b[k]} + multiset(b[k + 1..]);
    assert multiset(b[..k] + b[k + 1..]) == multiset(b[..k]) + multiset(b[k + 1..]);
  }

  /** Filtering commutes with reordering the listing. */
  lemma {:induction false} KeptPathsPermutation(a: seq<DirEntry>, b: seq<DirEntry>, keep: DirEntry -> bool)
    requires multiset(a) == multiset(b)
    ensures multiset(KeptPaths(a, keep)) == multiset(KeptPaths(b, keep))
    decreases |a|
  {
    assert |a| == |multiset(a)| == |multiset(b)| == |b|;
    if |a| > 0 {
      assert a[0] in multiset(b);
      var k :| 0 <= k < |b| && b[k] == a[0];
      SplitAt(b, k);
      SplitAt(a, 0);
      assert a[..0] + a[1..] == a[1..];
      KeptPathsPermutation(a[1..], b[..k] + b[k + 1..], keep);
      KeptPathsRemove(b, k, keep);
      KeptPathsRemove(a, 0, keep);
    }
  }

  /** The paths kept from a listing are those kept from one entry plus
      those kept from the others. */
  lemma KeptPathsRemove(b: seq<DirEntry>, k: nat, keep: DirEntry -> bool)
    requires k < |b|
    ensures multiset(KeptPaths(b, keep)) ==
            multiset(KeptPaths([b[k]], keep)) + multiset(KeptPaths(b[..k] + b[k + 1..], keep))
  {
    SplitAt(b, k);
    KeptPathsAppend(b[..k], [b[k]] + b[k + 1..], keep);
    KeptPathsAppend([b[k]], b[k + 1..], keep);
    KeptPathsAppend(b[..k], b[k + 1..], keep);
  }

  /** The "consistent ordering": the file list does not depend on the order
      the directory iterator visits entries in. */
  lemma FindS57FilesIgnoresListingOrder(path: string, v1: FsView, v2: FsView, recursive: bool)
    requires v1.kind == v2.kind
    requires multiset(v1.entries) == multiset(v2.entries)
    requires multiset(v1.allEntries) == multiset(v2.allEntries)
    ensures FindS57Files(path, v1, recursive) == FindS57Files(path, v2, recursive)
  {
    if v1.kind == Dir {
      var e1 := if recursive then v1.allEntries else v1.entries;
      var e2 := if recursive then v2.allEntries else v2.entries;
      KeptPathsPermutation(e1, e2, IsChartEntry);
      SortIgnoresInputOrder(ChartPaths(e1), ChartPaths(e2));
    }
  }

  /** A directory's result holds exactly its regular `.000` entries. */
  lemma FindS57FilesMembers(path: string, view: FsView, recursive: bool, p: string)
    requires view.kind == Dir
    ensures p in FindS57Files(path, view, recursive) <==>
      exists e :: e in (if recursive then view.allEntries else view.entries) && IsChartEntry(e) && e.path == p
  {
    var entries := if recursive then view.allEntries else view.entries;
    KeptPathsMembers(entries, IsChartEntry, p);
    assert p in FindS57Files(path, view, recursive) <==> p in multiset(ChartPaths(entries));
  }

  // ---------------------------------------------------------------------
  // Batched feature insertion

  const BatchSize: nat := 1000

  /** std::min(i + batchSize, size). */
  function BatchEnd(i: nat, n: nat): (end: nat)
    requires i < n
    ensures i < end <= n && end - i <= BatchSize
    ensures end == n || end == i + BatchSize
  {
    if i + BatchSize < n then i + BatchSize else n
  }

  /** The batch loop of processFile from offset `i`: stops at the first
      batch insertFeatures refuses. `failing` is the index of the first
      batch the server rejects, if any. */
  function InsertBatchesFrom(s: Store, chartId: int, fs: seq<Feature>, i: nat, failing: Option<nat>): (r: Outcome<bool>)
    requires Valid(s) && i <= |fs|
    ensures Valid(r.store)
    ensures r.store.connected == s.connected && r.store.charts == s.charts
    decreases |fs| - i
  {
    if i == |fs| then Outcome(true, s)
    else
      var end := BatchEnd(i, |fs|);
      var step := InsertFeatures(s, chartId, fs[i..end], failing != Some(i / BatchSize));
      if !step.value then Outcome(false, step.store)
      else InsertBatchesFrom(step.store, chartId, fs, end, failing)
  }

  /** The slices the batch loop hands to insertFeatures, from offset `i`. */
  function Batches(fs: seq<Feature>, i: nat): seq<seq<Feature>>
    requires i <= |fs|
    decreases |fs| - i
  {
    if i == |fs| then [] else [fs[i..BatchEnd(i, |fs|)]] + Batches(fs, BatchEnd(i, |fs|))
  }

  function Flatten(bs: seq<seq<Feature>>): seq<Feature> {
    if |bs| == 0 then [] else bs[0] + Flatten(bs[1..])
  }

  /** The batches cut the features into consecutive runs of BatchSize, the
      last one possibly shorter and none empty; joined they give back the
      features, and an empty list gives no batch at all. */
  lemma {:induction false} BatchesPartition(fs: seq<Feature>, i: nat)
    requires i <= |fs|
    ensures var bs := Batches(fs, i);
      Flatten(bs) == fs[i..] &&
      (|bs| == 0 <==> i == |fs|) &&
      (forall j :: 0 <= j < |bs| ==> 0 < |bs[j]| <= BatchSize) &&
      (forall j :: 0 <= j < |bs| - 1 ==> |bs[j]| == BatchSize)
    decreases |fs| - i
  {
    if i < |fs| {
      var end := BatchEnd(i, |fs|);
      BatchesPartition(fs, end);
      var bs := Batches(fs, i);
      assert bs[1..] == Batches(fs, end);
      assert fs[i..end] + fs[end..] == fs[i..];
      if end == |fs| {
        assert |bs| == 1;
      } else {
        assert |bs[0]| == BatchSize;
      }
    }
  }

  /** Each step of the batch loop hands insertFeatures the next slice of
      Batches, and the failure index of that step is its batch number. */
  lemma InsertBatchesTakesBatches(s: Store, chartId: int, fs: seq<Feature>, i: nat, failing: Option<nat>)
    requires Valid(s) && i < |fs|
    ensures var b := Batches(fs, i)[0];
      var step := InsertFeatures(s, chartId, b, failing != Some(i / BatchSize));
      i + |b| <= |fs| &&
      InsertBatchesFrom(s, chartId, fs, i, failing) ==
        if !step.value then Outcome(false, step.store)
        else InsertBatchesFrom(step.store, chartId, fs, i + |b|, failing)
  {
  }

  /** The first batch that fails counting from offset `i`: the batch at `i`
      when the server is gone or the chart id is unknown, otherwise the
      injected one. */
  function FirstFailure(s: Store, chartId: int, failing: Option<nat>, i: nat): Option<nat> {
    if !s.connected || chartId !in ChartIds(s) then Some(i / BatchSize) else failing
  }

  /** How many features are stored when the loop starts at `i`: up to the
      start of the failing batch, or all of them. */
  function StoredCount(i: nat, n: nat, failure: Option<nat>): (c: nat)
    requires i <= n
    ensures i <= c <= n
  {
    match failure
    case None => n
    case Some(k) => if i <= k * BatchSize < n then k * BatchSize else n
  }

  lemma RowsAppend(id: int, fs: seq<Feature>, i: nat, j: nat, k: nat)
    requires i <= j <= k <= |fs|
    ensures Rows(id, fs[i..j]) + Rows(id, fs[j..k]) == Rows(id, fs[i..k])
  {
  }

  /** The batch loop in closed form: it succeeds exactly when no batch
      fails, and the stored features are the prefix up to the failing batch
      (all of them on success), in order. */
  lemma {:induction false} InsertBatchesClosedForm(s: Store, chartId: int, fs: seq<Feature>, i: nat, failing: Option<nat>)
    requires Valid(s) && i <= |fs| && (i == |fs| || i % BatchSize == 0)
    ensures var r := InsertBatchesFrom(s, chartId, fs, i, failing);
      var c := StoredCount(i, |fs|, FirstFailure(s, chartId, failing, i));
      (r.value <==> c == |fs|) &&
      r.store == s.(features := s.features + Rows(chartId, fs[i..c]))
    decreases |fs| - i
  {
    if i == |fs| {
      assert s.features + Rows(chartId, fs[i..i]) == s.features;
    } else {
      var end := BatchEnd(i, |fs|);
      var step := InsertFeatures(s, chartId, fs[i..end], failing != Some(i / BatchSize));
      var failure := FirstFailure(s, chartId, failing, i);
      if step.value {
        assert ChartIds(step.store) == ChartIds(s);
        assert FirstFailure(step.store, chartId, failing, end) == failure == failing;
        StoredCountStep(i, end, |fs|, failure);
        InsertBatchesClosedForm(step.store, chartId, fs, end, failing);
        ClosedFormPass(s, step.store, chartId, fs, i, end, StoredCount(i, |fs|, failure));
      } else {
        assert failure == Some(i / BatchSize);
        StoredCountAtFailure(i, |fs|, failure);
        assert s.features + Rows(chartId, fs[i..i]) == s.features;
      }
    }
  }

  /** A batch that goes in, followed by the rest up to c, is the rows from
      i up to c. */
  lemma ClosedFormPass(s: Store, s1: Store, chartId: int, fs: seq<Feature>, i: nat, end: nat, c: nat)
    requires i <= end <= c <= |fs|
    requires s1 == s.(features := s.features + Rows(chartId, fs[i..end]))
    ensures s1.(features := s1.features + Rows(chartId, fs[end..c])) ==
            s.(features := s.features + Rows(chartId, fs[i..c]))
  {
    RowsAppend(chartId, fs, i, end, c);
    assert (s.features + Rows(chartId, fs[i..end])) + Rows(chartId, fs[end..c]) ==
           s.features + (Rows(chartId, fs[i..end]) + Rows(chartId, fs[end..c]));
  }

  /** Passing a batch that does not fail keeps the closed form's count. */
  lemma StoredCountStep(i: nat, end: nat, n: nat, failure: Option<nat>)
    requires i < n && i % BatchSize == 0 && end == BatchEnd(i, n)
    requires failure != Some(i / BatchSize)
    ensures end == n || end % BatchSize == 0
    ensures StoredCount(i, n, failure) == StoredCount(end, n, failure)
  {
    if failure.Some? {
      var k := failure.value;
      assert k != i / BatchSize;
      assert k * BatchSize != i;
      assert !(i < k * BatchSize < end);
    }
  }

  lemma StoredCountAtFailure(i: nat, n: nat, failure: Option<nat>)
    requires i < n && i % BatchSize == 0 && failure == Some(i / BatchSize)
    ensures StoredCount(i, n, failure) == i
  {
  }

  /** 2500 features go in as 1000, 1000 and 500; when the third batch fails
      the first 2000 stay stored. */
  lemma BatchExample(s: Store, chartId: int, fs: seq<Feature>)
    requires Valid(s) && s.connected && chartId in ChartIds(s) && |fs| == 2500
    ensures InsertBatchesFrom(s, chartId, fs, 0, None).value
    ensures var r := InsertBatchesFrom(s, chartId, fs, 0, Some(2));
      !r.value && r.store.features == s.features + Rows(chartId, fs[..2000])
  {
    InsertBatchesClosedForm(s, chartId, fs, 0, None);
    InsertBatchesClosedForm(s, chartId, fs, 0, Some(2));
    assert fs[0..2000] == fs[..2000];
  }

  // ---------------------------------------------------------------------
  // One file

  /** Which server calls fail while one file is processed. */
  datatype FileFaults = FileFaults(existsOk: bool, deleteOk: bool, insertChartOk: bool, failingBatch: Option<nat>)

  const NoFaults: FileFaults := FileFaults(true, true, true, None)

  datatype FileOutcome = FileOutcome(result: ProcessingResult, store: Store)

  const OpenFailed: string := "Failed to open file"
  const ChartInsertFailed: string := "Failed to insert chart"
  const FeatureInsertFailed: string := "Failed to insert features"

  /** The store after the existence check and the (unchecked) delete. */
  function ReplaceExisting(s: Store, name: string, faults: FileFaults): (s': Store)
    requires Valid(s)
    ensures Valid(s') && s'.connected == s.connected
  {
    if ChartExists(s, name, faults.existsOk) then DeleteChart(s, name, faults.deleteOk).store else s
  }

  /** processFile once the file is open: replace any stored copy of the
      chart, insert it, then insert its features in batches. */
  function IngestChart(fileName: string, info: ChartInfo, features: seq<Feature>, s: Store, faults: FileFaults): (out: FileOutcome)
    requires Valid(s)
    ensures Valid(out.store) && out.store.connected == s.connected
    ensures out.result.fileName == fileName && out.result.chartName == info.name
    ensures out.result.success <==> out.result.errorMessage == ""
    ensures !out.result.success ==> out.result.errorMessage == ChartInsertFailed || out.result.errorMessage == FeatureInsertFailed
  {
    var s1 := ReplaceExisting(s, info.name, faults);
    var ins := InsertChart(s1, info, faults.insertChartOk);
    if ins.value.None? then
      FileOutcome(ProcessingResult(false, fileName, info.name, 0, ChartInsertFailed), ins.store)
    else
      var b := InsertBatchesFrom(ins.store, ins.value.value, features, 0, faults.failingBatch);
      FileOutcome(ProcessingResult(b.value, fileName, info.name, |features|,
                                   if b.value then "" else FeatureInsertFailed), b.store)
  }

  /** What processFile reads from an opened S57 object. */
  datatype Extraction = Extraction(info: ChartInfo, features: seq<Feature>)

  /** Opening the file: nothing when GDAL fails, else getChartInfo and
      getAllFeatures. */
  function Extract(path: string, dataset: Option<Dataset>): (e: Option<Extraction>)
    ensures e.Some? <==> dataset.Some?
  {
    var r := Reader(path, dataset);
    if !IsOpen(r) then None else Some(Extraction(GetChartInfo(r), GetAllFeatures(r)))
  }

  /** processFile given the outcome of opening the file. */
  function ProcessOpened(path: string, e: Option<Extraction>, s: Store, faults: FileFaults): (out: FileOutcome)
    requires Valid(s)
    ensures Valid(out.store)
    ensures out.result.fileName == Paths.FileName(path)
    ensures e.None? ==> out == FileOutcome(ProcessingResult(false, Paths.FileName(path), "", 0, OpenFailed), s)
    ensures out.result.success <==> out.result.errorMessage == ""
    ensures e.Some? ==> out.result.chartName == e.value.info.name
    ensures e.Some? && out.result.success ==>
      out.result.featureCount == |e.value.features| && e.value.info.name in out.store.charts &&
      ChartFeatures(out.store.features, out.store.charts[e.value.info.name].id) == e.value.features
  {
    match e
    case None => FileOutcome(ProcessingResult(false, Paths.FileName(path), "", 0, OpenFailed), s)
    case Some(x) =>
      IngestChartSuccess(Paths.FileName(path), x.info, x.features, s, faults);
      IngestChart(Paths.FileName(path), x.info, x.features, s, faults)
  }

  /** processFile, given what GDAL yields for the path. */
  function ProcessFile(path: string, dataset: Option<Dataset>, s: Store, faults: FileFaults): (out: FileOutcome)
    requires Valid(s)
    ensures Valid(out.store)
    ensures out.result.fileName == Paths.FileName(path)
    ensures out.result.success <==> out.result.errorMessage == ""
    ensures dataset.None? ==> out == FileOutcome(ProcessingResult(false, Paths.FileName(path), "", 0, OpenFailed), s)
  {
    ProcessOpened(path, Extract(path, dataset), s, faults)
  }

  /** An opened file's chart and features are what the extractor reports. */
  lemma ProcessFileIngestsExtraction(path: string, dataset: Option<Dataset>, s: Store, faults: FileFaults)
    requires Valid(s) && dataset.Some?
    ensures var r := Reader(path, dataset);
      ProcessFile(path, dataset, s, faults) ==
        IngestChart(Paths.FileName(path), GetChartInfo(r), GetAllFeatures(r), s, faults)
  {
  }

  /** After the existence check and delete, the chart's name is free
      exactly when it was absent or the delete went through, and no other
      chart's row or features changed. */
  lemma ReplaceExistingFrees(s: Store, name: string, faults: FileFaults)
    requires Valid(s)
    ensures var s1 := ReplaceExisting(s, name, faults);
      s1.connected == s.connected && s1.nextId == s.nextId &&
      s1.charts - {name} == s.charts - {name} &&
      (name in s1.charts <==> name in s.charts && !(s.connected && faults.existsOk && faults.deleteOk))
  {
  }

  lemma ReplaceExistingKeepsOthers(s: Store, name: string, faults: FileFaults, other: int)
    requires Valid(s)
    requires forall n :: n in s.charts && s.charts[n].id == other ==> n != name
    ensures ChartFeatures(ReplaceExisting(s, name, faults).features, other) == ChartFeatures(s.features, other)
  {
    if ChartExists(s, name, faults.existsOk) {
      DeleteChartPlacement(s, name, faults.deleteOk, other);
    }
  }

  /** A chart id the sequence has not handed out yet owns no features. */
  lemma FreshChartHasNoFeatures(s: Store, id: int)
    requires Valid(s) && id >= s.nextId
    ensures ChartFeatures(s.features, id) == []
  {
    forall i | 0 <= i < |s.features| ensures s.features[i].chartId != id {
      assert s.features[i].chartId in ChartIds(s);
    }
    ChartFeaturesAbsent(s.features, id);
  }

  /** The store after a chart insert and its batches: the new chart's
      features are the stored prefix, other charts' features are as before. */
  lemma BatchesLandUnderNewChart(s1: Store, info: ChartInfo, features: seq<Feature>, ok: bool, failing: Option<nat>, other: int)
    requires Valid(s1)
    requires InsertChart(s1, info, ok).value.Some?
    ensures var ins := InsertChart(s1, info, ok);
      var id := ins.value.value;
      var b := InsertBatchesFrom(ins.store, id, features, 0, failing);
      var c := StoredCount(0, |features|, failing);
      (b.value <==> c == |features|) &&
      b.store.charts == ins.store.charts &&
      ChartFeatures(b.store.features, id) == features[..c] &&
      (other != id ==> ChartFeatures(b.store.features, other) == ChartFeatures(s1.features, other))
  {
    var ins := InsertChart(s1, info, ok);
    var id := ins.value.value;
    assert info.name in ins.store.charts && ins.store.charts[info.name].id == id;
    assert id in ChartIds(ins.store);
    InsertBatchesClosedForm(ins.store, id, features, 0, failing);
    var c := StoredCount(0, |features|, failing);
    assert features[0..c] == features[..c];
    FreshChartHasNoFeatures(s1, id);
    ChartFeaturesAppend(s1.features, Rows(id, features[..c]), id);
    if other != id {
      ChartFeaturesOfRows(id, features[..c], other);
      ChartFeaturesAppend(s1.features, Rows(id, features[..c]), other);
    } else {
      ChartFeaturesOfRows(id, features[..c], id + 1);
    }
  }

  /** A successful ingest replaces the chart: its row holds the new
      ChartInfo, its features are exactly the given ones in order, and every
      other chart keeps its row and its features. */
  lemma IngestChartSuccess(fileName: string, info: ChartInfo, features: seq<Feature>, s: Store, faults: FileFaults)
    requires Valid(s)
    ensures var out := IngestChart(fileName, info, features, s, faults);
      out.result.success ==>
        out.result.featureCount == |features| &&
        info.name in out.store.charts && out.store.charts[info.name].info == info &&
        ChartFeatures(out.store.features, out.store.charts[info.name].id) == features &&
        out.store.charts.Keys == s.charts.Keys + {info.name} &&
        forall n :: n in s.charts && n != info.name ==>
          out.store.charts[n] == s.charts[n] &&
          ChartFeatures(out.store.features, s.charts[n].id) == ChartFeatures(s.features, s.charts[n].id)
  {
    var out := IngestChart(fileName, info, features, s, faults);
    if out.result.success {
      var s1 := ReplaceExisting(s, info.name, faults);
      ReplaceExistingFrees(s, info.name, faults);
      var ins := InsertChart(s1, info, faults.insertChartOk);
      var id := ins.value.value;
      BatchesLandUnderNewChart(s1, info, features, faults.insertChartOk, faults.failingBatch, id);
      assert features[..|features|] == features;
      forall n | n in s.charts && n != info.name
        ensures out.store.charts[n] == s.charts[n]
        ensures ChartFeatures(out.store.features, s.charts[n].id) == ChartFeatures(s.features, s.charts[n].id)
      {
        IngestChartKeepsOthers(fileName, info, features, s, faults, n);
      }
    }
  }

  /** A successful ingest leaves every other chart's row and features as
      they were. */
  lemma IngestChartKeepsOthers(fileName: string, info: ChartInfo, features: seq<Feature>, s: Store, faults: FileFaults, n: string)
    requires Valid(s) && n in s.charts && n != info.name
    requires IngestChart(fileName, info, features, s, faults).result.success
    ensures var out := IngestChart(fileName, info, features, s, faults);
      n in out.store.charts && out.store.charts[n] == s.charts[n] &&
      ChartFeatures(out.store.features, s.charts[n].id) == ChartFeatures(s.features, s.charts[n].id)
  {
    var s1 := ReplaceExisting(s, info.name, faults);
    ReplaceExistingFrees(s, info.name, faults);
    var ins := InsertChart(s1, info, faults.insertChartOk);
    var id := ins.value.value;
    var other := s.charts[n].id;
    assert n in s1.charts && s1.charts[n] == s.charts[n];
    assert other != id;
    BatchesLandUnderNewChart(s1, info, features, faults.insertChartOk, faults.failingBatch, other);
    ReplaceExistingKeepsOthers(s, info.name, faults, other);
  }

  /** With a working server every opened chart goes in. */
  lemma IngestChartWithoutFaults(fileName: string, info: ChartInfo, features: seq<Feature>, s: Store)
    requires Valid(s) && s.connected
    ensures IngestChart(fileName, info, features, s, NoFaults).result.success
  {
    var s1 := ReplaceExisting(s, info.name, NoFaults);
    ReplaceExistingFrees(s, info.name, NoFaults);
    BatchesLandUnderNewChart(s1, info, features, true, None, 0);
  }

  /** Re-ingesting a chart replaces it: the chart count grows only for a
      name the store did not hold. */
  lemma ReingestKeepsChartCount(fileName: string, info: ChartInfo, features: seq<Feature>, s: Store, faults: FileFaults)
    requires Valid(s)
    ensures var out := IngestChart(fileName, info, features, s, faults);
      out.result.success ==>
        GetChartCount(out.store, true) == GetChartCount(s, true) + (if info.name in s.charts then 0 else 1)
  {
    var out := IngestChart(fileName, info, features, s, faults);
    if out.result.success {
      IngestChartSuccess(fileName, info, features, s, faults);
      assert out.store.connected == s.connected;
      if info.name in s.charts {
        assert out.store.charts.Keys == s.charts.Keys;
      }
    }
  }

  /** A failing batch leaves the chart and the batches before it stored,
      and still reports the full feature count. */
  lemma IngestChartBatchFailure(fileName: string, info: ChartInfo, features: seq<Feature>, s: Store, faults: FileFaults)
    requires Valid(s)
    ensures var out := IngestChart(fileName, info, features, s, faults);
      out.result.errorMessage == FeatureInsertFailed ==>
        faults.failingBatch.Some? &&
        var stored := faults.failingBatch.value * BatchSize;
        stored < |features| &&
        out.result.featureCount == |features| &&
        info.name in out.store.charts &&
        ChartFeatures(out.store.features, out.store.charts[info.name].id) == features[..stored]
  {
    var out := IngestChart(fileName, info, features, s, faults);
    if out.result.errorMessage == FeatureInsertFailed {
      var s1 := ReplaceExisting(s, info.name, faults);
      BatchesLandUnderNewChart(s1, info, features, faults.insertChartOk, faults.failingBatch, 0);
    }
  }

  /** When the chart row is refused no batch is attempted: the result
      counts no feature and the store is what the replacement step left. */
  lemma IngestChartInsertFailure(fileName: string, info: ChartInfo, features: seq<Feature>, s: Store, faults: FileFaults)
    requires Valid(s)
    ensures var out := IngestChart(fileName, info, features, s, faults);
      out.result.errorMessage == ChartInsertFailed ==>
        out.result.featureCount == 0 &&
        out.store == ReplaceExisting(s, info.name, faults) &&
        (s.connected && faults.insertChartOk ==> info.name in s.charts)
  {
  }

  // ---------------------------------------------------------------------
  // A run over many files

  datatype Statistics = Statistics(totalFiles: int, successCount: int, failCount: int, totalFeatures: int)

  /** One progress callback: files done so far, files in the run, the name. */
  datatype Progress = Progress(current: int, total: int, fileName: string)

  datatype Run = Run(results: seq<ProcessingResult>, store: Store)

  /** The files processed one after the other, each against the store the
      previous one left; the i-th file meets faults(i). */
  function RunFiles(files: seq<string>, read: string -> Option<Extraction>, s: Store, faults: nat -> FileFaults): (run: Run)
    requires Valid(s)
    ensures Valid(run.store) && |run.results| == |files|
    ensures NamedAfter(run.results, files)
  {
    if |files| == 0 then Run([], s)
    else
      var before := RunFiles(files[..|files| - 1], read, s, faults);
      var last := files[|files| - 1];
      var out := ProcessOpened(last, read(last), before.store, faults(|files| - 1));
      NamesSnoc(before.results, files, out.result);
      Run(before.results + [out.result], out.store)
  }

  /** Each result names the file it came from. */
  predicate NamedAfter(results: seq<ProcessingResult>, files: seq<string>)
    requires |results| <= |files|
  {
    forall i :: 0 <= i < |results| ==> results[i].fileName == Paths.FileName(files[i])
  }

  lemma NamesSnoc(results: seq<ProcessingResult>, files: seq<string>, r: ProcessingResult)
    requires |results| + 1 == |files|
    requires NamedAfter(results, files[..|results|])
    requires r.fileName == Paths.FileName(files[|results|])
    ensures NamedAfter(results + [r], files)
  {
  }

  /** One more file extends the run by that file's outcome. */
  lemma RunFilesStep(files: seq<string>, i: nat, read: string -> Option<Extraction>, s: Store, faults: nat -> FileFaults)
    requires Valid(s) && i < |files|
    ensures var before := RunFiles(files[..i], read, s, faults);
      var out := ProcessOpened(files[i], read(files[i]), before.store, faults(i));
      RunFiles(files[..i + 1], read, s, faults) == Run(before.results + [out.result], out.store)
  {
    assert files[..i + 1][..i] == files[..i];
  }

  function CountSuccesses(results: seq<ProcessingResult>): (n: nat)
    ensures n <= |results|
  {
    if |results| == 0 then 0
    else (if results[0].success then 1 else 0) + CountSuccesses(results[1..])
  }

  /** Feature counts of the successful files only. */
  function SuccessfulFeatures(results: seq<ProcessingResult>): int {
    if |results| == 0 then 0
    else (if results[0].success then results[0].featureCount else 0) + SuccessfulFeatures(results[1..])
  }

  lemma {:induction false} TotalsSnoc(results: seq<ProcessingResult>, r: ProcessingResult)
    ensures CountSuccesses(results + [r]) == CountSuccesses(results) + (if r.success then 1 else 0)
    ensures SuccessfulFeatures(results + [r]) == SuccessfulFeatures(results) + (if r.success then r.featureCount else 0)
    decreases |results|
  {
    if |results| == 0 {
      assert results + [r] == [r];
    } else {
      assert (results + [r])[1..] == results[1..] + [r];
      TotalsSnoc(results[1..], r);
    }
  }

  /** The statistics a list of results adds up to. */
  function Tally(results: seq<ProcessingResult>): Statistics {
    Statistics(|results|, CountSuccesses(results), |results| - CountSuccesses(results), SuccessfulFeatures(results))
  }

  /** The counter updates after one file: every file counts, a success adds
      its features, anything else counts as a failure. */
  method Record(stats: Statistics, result: ProcessingResult, ghost before: seq<ProcessingResult>)
    returns (stats': Statistics)
    requires stats == Tally(before)
    ensures stats' == Tally(before + [result])
  {
    TotalsSnoc(before, result);
    if result.success {
      stats' := stats.(totalFiles := stats.totalFiles + 1, successCount := stats.successCount + 1,
                       totalFeatures := stats.totalFeatures + result.featureCount);
    } else {
      stats' := stats.(totalFiles := stats.totalFiles + 1, failCount := stats.failCount + 1);
    }
  }

  /** The progress callbacks for a list of results: the count so far, the
      run's size, the file name. */
  function Callbacks(results: seq<ProcessingResult>, total: int): (ps: seq<Progress>)
    ensures |ps| == |results|
  {
    seq(|results|, j requires 0 <= j < |results| => Progress(j + 1, total, results[j].fileName))
  }

  lemma CallbacksSnoc(results: seq<ProcessingResult>, total: int, r: ProcessingResult)
    ensures Callbacks(results + [r], total) == Callbacks(results, total) + [Progress(|results| + 1, total, r.fileName)]
  {
  }

  /** processFiles followed by getStatistics. `progress` lists the
      callback's arguments in call order. */
  method ProcessFiles(files: seq<string>, read: string -> Option<Extraction>, s: Store, faults: nat -> FileFaults)
    returns (results: seq<ProcessingResult>, stats: Statistics, progress: seq<Progress>, store: Store)
    requires Valid(s)
    ensures Run(results, store) == RunFiles(files, read, s, faults)
    ensures stats == Tally(results) && stats.totalFiles == |files|
    ensures progress == Callbacks(results, |files|)
  {
    results := [];
    progress := [];
    store := s;
    stats := Statistics(0, 0, 0, 0);
    var total := |files|;
    var i := 0;
    while i < |files|
      invariant 0 <= i <= |files|
      invariant Run(results, store) == RunFiles(files[..i], read, s, faults)
      invariant stats == Tally(results)
      invariant |results| == i && progress == Callbacks(results, total)
    {
      RunFilesStep(files, i, read, s, faults);
      var out := ProcessOpened(files[i], read(files[i]), store, faults(i));
      var result := out.result;
      stats := Record(stats, result, results);
      CallbacksSnoc(results, total, result);
      results := results + [result];
      store := out.store;
      progress := progress + [Progress(stats.totalFiles, total, result.fileName)];
      i := i + 1;
    }
    assert files[..i] == files;
  }

  /** processDirectory: discovery, then the run over the sorted list. */
  method ProcessDirectory(dirPath: string, view: FsView, recursive: bool, read: string -> Option<Extraction>,
                          s: Store, faults: nat -> FileFaults)
    returns (results: seq<ProcessingResult>, stats: Statistics, store: Store)
    requires Valid(s)
    ensures Run(results, store) == RunFiles(FindS57Files(dirPath, view, recursive), read, s, faults)
    ensures stats == Tally(results) && stats.totalFiles == |FindS57Files(dirPath, view, recursive)|
  {
    var files := FindS57Files(dirPath, view, recursive);
    var progress;
    results, stats, progress, store := ProcessFiles(files, read, s, faults);
  }
}

=== FILE: join.dfy ===
/** Joining text parts the way the source's output loops do: a flag that
    suppresses the comma before the first part. */
module Join {
  /** The first part bare, every later one after a single comma. */
  function Separated(parts: seq<string>): string {
    if |parts| == 0 then "" else parts[0] + CommaPrefixed(parts[1..])
  }

  function CommaPrefixed(parts: seq<string>): string {
    if |parts| == 0 then "" else "," + parts[0] + CommaPrefixed(parts[1..])
  }

  lemma CommaPrefixedIsSeparated(parts: seq<string>)
    requires |parts| > 0
    ensures CommaPrefixed(parts) == "," + Separated(parts)
  {
  }

  lemma SeparatedCons(parts: seq<string>, close: string)
    requires |parts| > 0
    ensures Separated(parts) + close == parts[0] + (CommaPrefixed(parts[1..]) + close)
    ensures |parts| == 1 ==> CommaPrefixed(parts[1..]) + close == close
    ensures |parts| > 1 ==>
      var tail := CommaPrefixed(parts[1..]) + close;
      |tail| > 0 && tail[0] == ',' && tail[1..] == Separated(parts[1..]) + close
  {
    if |parts| > 1 {
      CommaPrefixedIsSeparated(parts[1..]);
      var tail := CommaPrefixed(parts[1..]) + close;
      assert tail == "," + (Separated(parts[1..]) + close);
    }
  }
}

=== FILE: json_read.dfy ===
/** A reader for the JSON text the builders produce: string literals with
    their escapes, arrays of strings, objects of string members. It is the
    inverse the builders are checked against. */
module JsonRead {
  import opened Wrappers
  import opened SortedMap
  import opened JsonUtils
  import opened Join

  function HexValue(c: char): (r: Option<int>)
    ensures r.Some? ==> 0 <= r.value < 16
  {
    if '0' <= c <= '9' then Some(c as int - '0' as int)
    else if 'a' <= c <= 'f' then Some(c as int - 'a' as int + 10)
    else if 'A' <= c <= 'F' then Some(c as int - 'A' as int + 10)
    else None
  }

  lemma HexValueOfDigit(n: int)
    requires 0 <= n < 16
    ensures HexValue(HexDigit(n)) == Some(n)
  {
  }

  /** The character a \u escape names, from its four hex digits. */
  function UnicodeEscape(h: string): (r: Option<char>)
    requires |h| == 4
  {
    match (HexValue(h[0]), HexValue(h[1]), HexValue(h[2]), HexValue(h[3]))
    case (Some(a), Some(b), Some(c), Some(d)) =>
      var code := ((a * 16 + b) * 16 + c) * 16 + d;
      if 0xD800 <= code < 0xE000 then None else Some(code as char)
    case _ => None
  }

  /** An escape after its backslash: the character it stands for and how
      many characters it spans. */
  function ReadEscape(s: string): (r: Option<(char, nat)>)
    ensures r.Some? ==> 1 <= r.value.1 <= |s|
  {
    if |s| == 0 then None
    else if s[0] == '"' || s[0] == '\\' || s[0] == '/' then Some((s[0], 1))
    else if s[0] == 'b' then Some((8 as char, 1))
    else if s[0] == 'f' then Some((12 as char, 1))
    else if s[0] == 'n' then Some(('\n', 1))
    else if s[0] == 'r' then Some(('\r', 1))
    else if s[0] == 't' then Some(('\t', 1))
    else if s[0] == 'u' && |s| >= 5 then
      match UnicodeEscape(s[1..5])
      case Some(c) => Some((c, 5))
      case None => None
    else None
  }

  function Prepend(c: char, r: Option<(string, string)>): Option<(string, string)> {
    match r
    case Some((d, rest)) => Some(([c] + d, rest))
    case None => None
  }

  /** The body of a string literal after its opening quote: the decoded
      text and what follows the closing quote. */
  function ReadStringBody(s: string): (r: Option<(string, string)>)
    ensures r.Some? ==> |r.value.1| < |s|
    decreases |s|
  {
    if |s| == 0 then None
    else if s[0] == '"' then Some(("", s[1..]))
    else if s[0] == '\\' then
      match ReadEscape(s[1..])
      case None => None
      case Some((c, n)) => Prepend(c, ReadStringBody(s[1 + n..]))
    else if (s[0] as int) < 0x20 then None
    else Prepend(s[0], ReadStringBody(s[1..]))
  }

  function ReadQuoted(s: string): (r: Option<(string, string)>)
    ensures r.Some? ==> |r.value.1| < |s|
  {
    if |s| > 0 && s[0] == '"' then ReadStringBody(s[1..]) else None
  }

  /** Reading one escaped character hands back that character. */
  lemma ReadEscapedChar(c: char, t: string)
    ensures ReadStringBody(EscapeChar(c) + t) == Prepend(c, ReadStringBody(t))
  {
    if Plain(c) {
      ReadPlainChar(c, t);
    } else if (c as int) < 0x20 && c as int !in {8, 9, 10, 12, 13} {
      ReadUnicodeEscape(c, t);
    } else {
      ReadShortEscape(c, t);
    }
  }

  lemma ReadPlainChar(c: char, t: string)
    requires Plain(c)
    ensures ReadStringBody(EscapeChar(c) + t) == Prepend(c, ReadStringBody(t))
  {
    var s := [c] + t;
    assert s[0] == c && s[1..] == t;
  }

  lemma ReadShortEscape(c: char, t: string)
    requires !Plain(c) && !((c as int) < 0x20 && c as int !in {8, 9, 10, 12, 13})
    ensures ReadStringBody(EscapeChar(c) + t) == Prepend(c, ReadStringBody(t))
  {
    var e := EscapeChar(c);
    assert |e| == 2 && e[0] == '\\';
    var s := e + t;
    assert s[0] == '\\' && s[1..] == [e[1]] + t && s[2..] == t;
  }

  lemma ReadUnicodeEscape(c: char, t: string)
    requires (c as int) < 0x20 && c as int !in {8, 9, 10, 12, 13}
    ensures ReadStringBody(EscapeChar(c) + t) == Prepend(c, ReadStringBody(t))
  {
    var h := ['0', '0', HexDigit(c as int / 16), HexDigit(c as int % 16)];
    UnicodeEscapeOfControl(c);
    var e := ['\\', 'u'] + h;
    assert EscapeChar(c) == e;
    var s := e + t;
    var u := s[1..];
    assert u[0] == 'u' && |u| >= 5 && u[1..5] == h;
    assert ReadEscape(u) == Some((c, 5));
    assert s[0] == '\\' && s[6..] == t;
  }

  /** The four hex digits written for a control character name it. */
  lemma UnicodeEscapeOfControl(c: char)
    requires (c as int) < 0x20
    ensures UnicodeEscape(['0', '0', HexDigit(c as int / 16), HexDigit(c as int % 16)]) == Some(c)
  {
    var hi := c as int / 16;
    var lo := c as int % 16;
    HexValueOfDigit(hi);
    HexValueOfDigit(lo);
    assert ((0 * 16 + 0) * 16 + hi) * 16 + lo == c as int;
  }

  /** Escaped text followed by a closing quote reads back as the original. */
  lemma ReadEscapedString(x: string, rest: string)
    ensures ReadStringBody(EscapeString(x) + "\"" + rest) == Some((x, rest))
  {
    ReadEscapedThenQuote(x, "\"" + rest, rest);
    assert EscapeString(x) + "\"" + rest == EscapeString(x) + ("\"" + rest);
  }

  lemma {:induction false} ReadEscapedThenQuote(x: string, q: string, rest: string)
    requires q == "\"" + rest
    ensures ReadStringBody(EscapeString(x) + q) == Some((x, rest))
    decreases |x|
  {
    if |x| == 0 {
      assert EscapeString(x) + q == q;
      assert q[1..] == rest;
    } else {
      var h := EscapeChar(x[0]);
      var t := EscapeString(x[1..]) + q;
      assert EscapeString(x) == h + EscapeString(x[1..]);
      assert EscapeString(x) + q == h + t;
      ReadEscapedThenQuote(x[1..], q, rest);
      ReadEscapedChar(x[0], t);
      assert [x[0]] + x[1..] == x;
    }
  }

  lemma ReadQuotedOfQuoted(x: string, rest: string)
    ensures ReadQuoted(Quoted(x) + rest) == Some((x, rest))
  {
    var s := Quoted(x) + rest;
    assert s[1..] == EscapeString(x) + "\"" + rest;
    ReadEscapedString(x, rest);
  }

  /** A JSON array of strings. */
  function ReadArray(s: string): Option<seq<string>> {
    if s == "[]" then Some([])
    else if |s| > 0 && s[0] == '[' then ReadItems(s[1..])
    else None
  }

  /** Items after the opening bracket, up to the closing one at the end. */
  function ReadItems(s: string): Option<seq<string>>
    decreases |s|
  {
    match ReadQuoted(s)
    case None => None
    case Some((item, rest)) =>
      if rest == "]" then Some([item])
      else if |rest| > 0 && rest[0] == ',' then
        match ReadItems(rest[1..])
        case None => None
        case Some(more) => Some([item] + more)
      else None
  }

  function QuotedItems(items: seq<string>): seq<string> {
    seq(|items|, i requires 0 <= i < |items| => Quoted(items[i]))
  }

  lemma ReadItemsStep(s: string, item: string, tail: string)
    requires ReadQuoted(s) == Some((item, tail))
    ensures ReadItems(s) ==
      if tail == "]" then Some([item])
      else if |tail| > 0 && tail[0] == ',' then
        match ReadItems(tail[1..])
        case None => None
        case Some(more) => Some([item] + more)
      else None
  {
  }

  lemma QuotedItemsCons(items: seq<string>)
    requires |items| > 0
    ensures QuotedItems(items)[0] == Quoted(items[0])
    ensures QuotedItems(items)[1..] == QuotedItems(items[1..])
  {
  }

  lemma {:induction false} ReadItemsOfSeparated(items: seq<string>)
    requires |items| > 0
    ensures ReadItems(Separated(QuotedItems(items)) + "]") == Some(items)
    decreases |items|
  {
    var parts := QuotedItems(items);
    QuotedItemsCons(items);
    SeparatedCons(parts, "]");
    var tail := CommaPrefixed(parts[1..]) + "]";
    ReadQuotedOfQuoted(items[0], tail);
    ReadItemsStep(Separated(parts) + "]", items[0], tail);
    if |items| == 1 {
      assert items == [items[0]];
    } else {
      ReadItemsOfSeparated(items[1..]);
      assert [items[0]] + items[1..] == items;
    }
  }

  /** toJsonArray reads back as its input list, in order. */
  lemma ArrayRoundTrip(items: seq<string>)
    ensures ReadArray(ToJsonArray(items)) == Some(items)
  {
    if |items| > 0 {
      var s := ToJsonArray(items);
      assert s == "[" + (Separated(QuotedItems(items)) + "]");
      assert s[1..] == Separated(QuotedItems(items)) + "]";
      ReadItemsOfSeparated(items);
    }
  }

  /** A JSON object of string members. */
  function ReadObject(s: string): Option<seq<Entry>> {
    if s == "{}" then Some([])
    else if |s| > 0 && s[0] == '{' then ReadMembers(s[1..])
    else None
  }

  /** One `"key":"value"` member and what follows it. */
  function ReadMember(s: string): (r: Option<(Entry, string)>)
    ensures r.Some? ==> |r.value.1| < |s|
  {
    match ReadQuoted(s)
    case None => None
    case Some((key, afterKey)) =>
      if |afterKey| == 0 || afterKey[0] != ':' then None
      else
        match ReadQuoted(afterKey[1..])
        case None => None
        case Some((value, rest)) => Some((Entry(key, value), rest))
  }

  function ReadMembers(s: string): Option<seq<Entry>>
    decreases |s|
  {
    match ReadMember(s)
    case None => None
    case Some((e, rest)) =>
      if rest == "}" then Some([e])
      else if |rest| > 0 && rest[0] == ',' then
        match ReadMembers(rest[1..])
        case None => None
        case Some(more) => Some([e] + more)
      else None
  }

  function Members(es: seq<Entry>): seq<string> {
    seq(|es|, i requires 0 <= i < |es| => Member(es[i]))
  }

  lemma ReadMembersStep(s: string, e: Entry, tail: string)
    requires ReadMember(s) == Some((e, tail))
    ensures ReadMembers(s) ==
      if tail == "}" then Some([e])
      else if |tail| > 0 && tail[0] == ',' then
        match ReadMembers(tail[1..])
        case None => None
        case Some(more) => Some([e] + more)
      else None
  {
  }

  lemma ReadMemberOfMember(e: Entry, tail: string)
    ensures ReadMember(Member(e) + tail) == Some((e, tail))
  {
    var afterKey := ":" + (Quoted(e.value) + tail);
    assert Member(e) + tail == Quoted(e.key) + afterKey;
    ReadQuotedOfQuoted(e.key, afterKey);
    assert afterKey[1..] == Quoted(e.value) + tail;
    ReadQuotedOfQuoted(e.value, tail);
  }

  lemma {:induction false} ReadMembersOfSeparated(es: seq<Entry>)
    requires |es| > 0
    ensures ReadMembers(Separated(Members(es)) + "}") == Some(es)
    decreases |es|
  {
    var parts := Members(es);
    MembersCons(es);
    SeparatedCons(parts, "}");
    var tail := CommaPrefixed(parts[1..]) + "}";
    ReadMemberOfMember(es[0], tail);
    ReadMembersStep(Separated(parts) + "}", es[0], tail);
    if |es| == 1 {
      assert es == [es[0]];
    } else {
      ReadMembersOfSeparated(es[1..]);
      assert [es[0]] + es[1..] == es;
    }
  }

  lemma MembersCons(es: seq<Entry>)
    requires |es| > 0
    ensures Members(es)[0] == Member(es[0])
    ensures Members(es)[1..] == Members(es[1..])
  {
  }

  /** toJsonObject reads back as the map's entries, keys ascending. */
  lemma ObjectRoundTrip(m: StrMap)
    ensures ReadObject(ToJsonObject(m)) == Some(m)
  {
    if |m| > 0 {
      var s := ToJsonObject(m);
      assert s == "{" + (Separated(Members(m)) + "}");
      assert s[1..] == Separated(Members(m)) + "}";
      ReadMembersOfSeparated(m);
    }
  }
}

=== FILE: json_utils.dfy ===
/** The JSON text builders: string escaping, an object from an ordered
    string map, an array from a string list. */
module JsonUtils {
  import opened SortedMap
  import opened Join

  function HexDigit(n: int): (c: char)
    requires 0 <= n < 16
  {
    if n < 10 then ('0' as int + n) as char else ('a' as int + n - 10) as char
  }

  /** A character that is copied as it is: not a control character, not a
      quote, not a backslash. Everything from 0x80 up is copied. */
  predicate Plain(c: char) {
    c as int >= 0x20 && c != '"' && c != '\\'
  }

  predicate AllPlain(s: string) {
    forall i :: 0 <= i < |s| ==> Plain(s[i])
  }

  predicate NoControl(s: string) {
    forall i :: 0 <= i < |s| ==> s[i] as int >= 0x20
  }

  /** The text one character contributes to an escaped string. */
  function EscapeChar(c: char): (r: string)
    ensures |r| >= 1 && NoControl(r)
    ensures Plain(c) <==> r == [c]
    ensures !Plain(c) ==> |r| >= 2 && r[0] == '\\'
  {
    if c == '"' then ['\\', '"']
    else if c == '\\' then ['\\', '\\']
    else if c as int == 8 then ['\\', 'b']
    else if c as int == 12 then ['\\', 'f']
    else if c == '\n' then ['\\', 'n']
    else if c == '\r' then ['\\', 'r']
    else if c == '\t' then ['\\', 't']
    else if (c as int) < 0x20 then ['\\', 'u', '0', '0', HexDigit(c as int / 16), HexDigit(c as int % 16)]
    else [c]
  }

  /** escapeString, one character at a time. */
  function EscapeString(s: string): (r: string)
    ensures |r| >= |s| && NoControl(r)
    ensures AllPlain(s) ==> r == s
    ensures !AllPlain(s) ==> |r| > |s|
  {
    if |s| == 0 then ""
    else
      var head := EscapeChar(s[0]);
      var tail := EscapeString(s[1..]);
      assert AllPlain(s) <==> Plain(s[0]) && AllPlain(s[1..]) by {
        assert forall i :: 0 < i < |s| ==> s[i] == s[1..][i - 1];
      }
      assert forall i :: 0 <= i < |head + tail| ==>
        (head + tail)[i] == if i < |head| then head[i] else tail[i - |head|];
      if AllPlain(s) then
        assert head + tail == [s[0]] + s[1..];
        head + tail
      else
        head + tail
  }

  /** Each character is escaped on its own, so escaping distributes over
      concatenation. */
  lemma {:induction false} EscapeConcat(a: string, b: string)
    ensures EscapeString(a + b) == EscapeString(a) + EscapeString(b)
    decreases |a|
  {
    if |a| == 0 {
      assert a + b == b;
    } else {
      assert (a + b)[0] == a[0];
      assert (a + b)[1..] == a[1..] + b;
      EscapeConcat(a[1..], b);
    }
  }

  /** The escape table: the two-character escapes, and \u00XX with two
      lower-case hex digits for the remaining control characters. */
  lemma EscapeTable(c: char)
    ensures EscapeChar('"') == "\\\"" && EscapeChar('\\') == "\\\\"
    ensures EscapeChar('\n') == "\\n" && EscapeChar('\r') == "\\r" && EscapeChar('\t') == "\\t"
    ensures EscapeChar(8 as char) == "\\b" && EscapeChar(12 as char) == "\\f"
    ensures EscapeChar(1 as char) == "\\u0001" && EscapeChar(31 as char) == "\\u001f"
    ensures c as int < 0x20 && c as int !in {8, 9, 10, 12, 13} ==>
      EscapeChar(c) == "\\u00" + [HexDigit(c as int / 16), HexDigit(c as int % 16)]
    ensures EscapeString([c]) == EscapeChar(c)
  {
    assert [c][1..] == [];
  }

  function Quoted(s: string): string {
    "\"" + EscapeString(s) + "\""
  }

  function Member(e: Entry): string {
    Quoted(e.key) + ":" + Quoted(e.value)
  }

  /** toJsonObject: the members in the map's (ascending key) order. */
  function ToJsonObject(m: StrMap): (r: string)
    ensures |m| == 0 <==> r == "{}"
    ensures |r| >= 2 && r[0] == '{' && r[|r| - 1] == '}'
  {
    var body := Separated(seq(|m|, i requires 0 <= i < |m| => Member(m[i])));
    assert |m| > 0 ==> |body| > 0;
    "{" + body + "}"
  }

  /** toJsonArray: the items, quoted and escaped, in input order. */
  function ToJsonArray(items: seq<string>): (r: string)
    ensures |items| == 0 <==> r == "[]"
    ensures |r| >= 2 && r[0] == '[' && r[|r| - 1] == ']'
  {
    var body := Separated(seq(|items|, i requires 0 <= i < |items| => Quoted(items[i])));
    assert |items| > 0 ==> |body| > 0;
    "[" + body + "]"
  }
}

=== FILE: paths.dfy ===
/** The parts of std::filesystem::path the pipeline uses, for POSIX paths:
    filename() (after the last '/'), extension() (from the last '.' of the
    file name, except in "." and ".." and when that '.' starts the name)
    and stem() (the file name without its extension). */
module Paths {
  import opened Wrappers

  function FileName(p: string): (f: string)
    ensures |f| <= |p|
    ensures '/' !in f
    ensures |f| < |p| ==> p[|p| - |f| - 1] == '/'
  {
    if |p| == 0 || p[|p| - 1] == '/' then ""
    else
      var f := FileName(p[..|p| - 1]) + [p[|p| - 1]];
      assert f[..|f| - 1] == FileName(p[..|p| - 1]);
      f
  }

  /** filename() is the tail of the path after its last '/': a suffix of
      the path, preceded by '/' unless it is the whole path. */
  lemma {:induction false} FileNameIsSuffix(p: string)
    ensures var f := FileName(p);
      f == p[|p| - |f|..] && '/' !in f && (|f| < |p| ==> p[|p| - |f| - 1] == '/')
    decreases |p|
  {
    if |p| > 0 && p[|p| - 1] != '/' {
      var init := p[..|p| - 1];
      FileNameIsSuffix(init);
      var g := FileName(init);
      assert p[|p| - |g| - 1..] == init[|init| - |g|..] + [p[|p| - 1]];
    }
  }

  /** No '.' at any position after `from`. */
  predicate NoDotAfter(f: string, from: int) {
    forall k :: 0 <= k < |f| && from < k ==> f[k] != '.'
  }

  /** Position of the last '.' in `f`, if any. */
  function LastDot(f: string): (r: Option<nat>)
    ensures r.None? ==> NoDotAfter(f, -1)
    ensures r.Some? ==> r.value < |f| && f[r.value] == '.' && NoDotAfter(f, r.value)
  {
    if |f| == 0 then None
    else if f[|f| - 1] == '.' then Some(|f| - 1)
    else LastDot(f[..|f| - 1])
  }

  lemma LastDotIs(f: string, j: nat)
    requires j < |f| && f[j] == '.' && NoDotAfter(f, j)
    ensures LastDot(f) == Some(j)
  {
  }

  /** extension() of a path: empty, or the file name's suffix from its
      last '.', never the whole name. */
  function Extension(p: string): (e: string)
    ensures e == "" || (e[0] == '.' && NoDotAfter(e, 0) && |e| < |FileName(p)|)
    ensures e == FileName(p)[|FileName(p)| - |e|..]
  {
    NameExtension(FileName(p))
  }

  /** stem() of a path: the file name without its extension. */
  function Stem(p: string): (s: string)
    ensures s + Extension(p) == FileName(p)
  {
    NameStem(FileName(p))
  }

  /** extension() of a file name. */
  function NameExtension(f: string): (e: string)
    ensures e == "" || (e[0] == '.' && NoDotAfter(e, 0) && |e| < |f|)
    ensures e == f[|f| - |e|..]
  {
    if f == "." || f == ".." then ""
    else
      match LastDot(f)
      case None => ""
      case Some(i) => if i == 0 then "" else DotSuffix(f, i)
  }

  function DotSuffix(f: string, i: nat): (e: string)
    requires 0 < i < |f| && f[i] == '.' && NoDotAfter(f, i)
    ensures e == f[i..] && e[0] == '.' && NoDotAfter(e, 0) && |e| < |f|
  {
    assert forall k :: 0 < k < |f| - i ==> f[i..][k] == f[i + k];
    f[i..]
  }

  /** stem() of a file name: what precedes its extension. */
  function NameStem(f: string): (s: string)
    ensures s + NameExtension(f) == f
  {
    var e := NameExtension(f);
    assert f == f[..|f| - |e|] + f[|f| - |e|..];
    f[..|f| - |e|]
  }

  /** The chart-file test: extension() == ".000" exactly when the file name
      ends in ".000" and has something before that suffix (".000" alone is a
      hidden file with no extension). */
  lemma ExtensionIsChartSuffix(p: string)
    ensures Extension(p) == ".000" <==>
      (|FileName(p)| > 4 && FileName(p)[|FileName(p)| - 4..] == ".000")
  {
    NameExtensionIsChartSuffix(FileName(p));
  }

  lemma NameExtensionIsChartSuffix(f: string)
    ensures NameExtension(f) == ".000" <==> (|f| > 4 && f[|f| - 4..] == ".000")
  {
    if |f| > 4 && f[|f| - 4..] == ".000" {
      var j := |f| - 4;
      assert f[j] == '.';
      LastDotIs(f, j);
      assert f != "." && f != "..";
    }
  }

  /** The file name of `dir/name` is `name` whenever `name` has no '/'. */
  lemma {:induction false} FileNameAfterSlash(dir: string, name: string)
    requires '/' !in name
    ensures FileName(dir + "/" + name) == name
    decreases |name|
  {
    var p := dir + "/" + name;
    if |name| == 0 {
      assert p[|p| - 1] == '/';
    } else {
      var init := name[..|name| - 1];
      assert p[..|p| - 1] == dir + "/" + init;
      assert '/' !in init by { assert forall k :: 0 <= k < |init| ==> init[k] == name[k]; }
      FileNameAfterSlash(dir, init);
      assert init + [name[|name| - 1]] == name;
    }
  }

  lemma PathExamples()
    ensures Extension("d/a.000") == ".000" && Stem("d/a.000") == "a"
    ensures Extension("d/.000") == "" && Stem("d/.000") == ".000"
  {
    FileNameAfterSlash("d", "a.000");
    assert "d" + "/" + "a.000" == "d/a.000";
    NameExtensionIsChartSuffix("a.000");
    FileNameAfterSlash("d", ".000");
    assert "d" + "/" + ".000" == "d/.000";
    LastDotIs(".000", 0);
  }
}

=== FILE: s57.dfy ===
/** The record extractor: a parsed S-57 dataset, as the GDAL reader exposes
    it, turned into one ChartInfo and a sequence of Feature records. The
    reader itself is a value: the file path it was opened on, and the
    dataset when the open succeeded. */
module S57 {
  import opened Wrappers
  import opened SortedMap
  import opened ZFinder
  import opened Types
  import opened JsonUtils
  import JsonRead
  import Stoi
  import Paths

  /** wkbFlatten of the geometry type, as far as the extractor tells them apart. */
  datatype GeometryKind = Point | LineString | Polygon | OtherKind

  /** A feature geometry as the reader hands it over: its flattened type,
      its GeoJSON text after reprojection to WGS84, and for a 3-D geometry
      its Z value already written with one decimal. */
  datatype Geometry = Geometry(kind: GeometryKind, geoJson: string, z: Option<string>)

  /** One attribute field: None when the field is unset or null, otherwise
      the reader's text for it. */
  datatype Field = Field(name: string, value: Option<string>)

  /** A source feature: its fields in field-definition order, its geometry
      if any, and its LNAM_REFS list when that field is set. */
  datatype RawFeature = RawFeature(fields: seq<Field>, geometry: Option<Geometry>, lnamRefs: Option<seq<string>>)

  datatype Layer = Layer(name: string, features: seq<RawFeature>)

  datatype Dataset = Dataset(layers: seq<Layer>)

  /** An S57 object: the path it was constructed with and the dataset GDAL
      opened, absent when opening failed. */
  datatype Reader = Reader(filePath: string, dataset: Option<Dataset>)

  predicate IsOpen(r: Reader) {
    r.dataset.Some?
  }

  function NamesOf(layers: seq<Layer>): (names: seq<string>)
    ensures |names| == |layers|
    ensures forall i :: 0 <= i < |layers| ==> names[i] == layers[i].name
  {
    seq(|layers|, i requires 0 <= i < |layers| => layers[i].name)
  }

  /** getLayerNames: every layer's name in dataset order; none when closed. */
  function GetLayerNames(r: Reader): (names: seq<string>)
    ensures !IsOpen(r) ==> names == []
    ensures IsOpen(r) ==> (|names| == |r.dataset.value.layers| &&
      forall i :: 0 <= i < |names| ==> names[i] == r.dataset.value.layers[i].name)
  {
    match r.dataset
    case None => []
    case Some(ds) => NamesOf(ds.layers)
  }

  /** GetLayerByName: the first layer carrying exactly that name. */
  function FindLayer(layers: seq<Layer>, name: string): (found: Option<Layer>)
    ensures found.Some? ==> found.value.name == name && found.value in layers
    ensures found.None? ==> forall i :: 0 <= i < |layers| ==> layers[i].name != name
  {
    if |layers| == 0 then None
    else if layers[0].name == name then Some(layers[0])
    else FindLayer(layers[1..], name)
  }

  lemma {:induction false} FindLayerFirst(layers: seq<Layer>, k: nat)
    requires k < |layers|
    requires forall j :: 0 <= j < k ==> layers[j].name != layers[k].name
    ensures FindLayer(layers, layers[k].name) == Some(layers[k])
    decreases k
  {
    if k > 0 {
      FindLayerFirst(layers[1..], k - 1);
    }
  }

  function ListContains(list: seq<string>, name: string): (b: bool)
    ensures b <==> exists i :: 0 <= i < |list| && list[i] == name
  {
    if |list| == 0 then false
    else if list[0] == name then true
    else
      var b := ListContains(list[1..], name);
      assert forall i :: 0 < i < |list| ==> list[i] == list[1..][i - 1];
      b
  }

  /** isExcludedLayer: a scan of the excluded-layer list. */
  function IsExcludedLayer(name: string): (b: bool)
    ensures b <==> name in {"DSID", "IsolatedNode", "ConnectedNode", "Edge", "Face"}
  {
    ListContains(ExcludedLayers, name)
  }

  /** The coverage layer is a real layer, not a structural one. */
  lemma CoverageLayerIsKept()
    ensures !IsExcludedLayer("M_COVR") && !IsExcludedLayer("SOUNDG")
    ensures IsExcludedLayer("DSID") && IsExcludedLayer("Edge")
  {
  }

  /** A field value extractProperties keeps: set, not null, not empty. */
  predicate Present(v: Option<string>) {
    v.Some? && |v.value| > 0
  }

  /** Reference reading of a field list: the value of the last present
      field with that name, later fields overwriting earlier ones. */
  function LastPresent(fields: seq<Field>, key: string): Option<string> {
    if |fields| == 0 then None
    else
      var f := fields[|fields| - 1];
      if f.name == key && Present(f.value) then f.value
      else LastPresent(fields[..|fields| - 1], key)
  }

  /** extractProperties: walk the fields in order, storing every present
      value under its field name. */
  function ExtractProperties(fields: seq<Field>): (props: StrMap)
    ensures forall k :: Find(props, k) == LastPresent(fields, k)
  {
    if |fields| == 0 then []
    else
      var before := ExtractProperties(fields[..|fields| - 1]);
      var f := fields[|fields| - 1];
      if Present(f.value) then Put(before, f.name, f.value.value) else before
  }

  /** A key is in the extracted properties exactly when some field of that
      name is present, and its value is never empty. */
  lemma {:induction false} PropertiesArePresentFields(fields: seq<Field>, key: string)
    ensures Find(ExtractProperties(fields), key).Some? <==>
      exists i :: 0 <= i < |fields| && fields[i].name == key && Present(fields[i].value)
    ensures Find(ExtractProperties(fields), key).Some? ==> |Find(ExtractProperties(fields), key).value| > 0
    decreases |fields|
  {
    if |fields| > 0 {
      var init := fields[..|fields| - 1];
      PropertiesArePresentFields(init, key);
      assert forall i :: 0 <= i < |init| ==> init[i] == fields[i];
    }
  }

  /** The geometry kind and Z that trigger the METERS property. */
  predicate IsDepthPoint(g: Option<Geometry>) {
    g.Some? && g.value.kind == Point && g.value.z.Some?
  }

  /** The properties one feature of a layer carries: its present fields,
      plus METERS from the point's Z on the SOUNDG layer. */
  function FeatureProperties(layerName: string, raw: RawFeature): StrMap {
    var props := ExtractProperties(raw.fields);
    if layerName == "SOUNDG" && IsDepthPoint(raw.geometry) then
      Put(props, "METERS", raw.geometry.value.z.value)
    else props
  }

  /** METERS is the only key the extractor adds, and only to 3-D points on
      SOUNDG; every other key comes from a present field. */
  lemma FeaturePropertiesKeys(layerName: string, raw: RawFeature, key: string)
    ensures Find(FeatureProperties(layerName, raw), key).Some? <==>
      (Find(ExtractProperties(raw.fields), key).Some? ||
       (key == "METERS" && layerName == "SOUNDG" && IsDepthPoint(raw.geometry)))
    ensures layerName == "SOUNDG" && IsDepthPoint(raw.geometry) ==>
      Find(FeatureProperties(layerName, raw), "METERS") == raw.geometry.value.z
    ensures key != "METERS" ==>
      Find(FeatureProperties(layerName, raw), key) == LastPresent(raw.fields, key)
  {
  }

  /** A scale bound attribute: absent or unparsable counts as 0. */
  function ParseBound(text: Option<string>): int {
    match text
    case None => 0
    case Some(t) => Stoi.ParseOrZero(t)
  }

  /** getScaleRange. */
  function GetScaleRange(props: StrMap): (zr: ZRange)
    ensures zr.minZ <= zr.maxZ <= OneToOneZoom
  {
    CalculateZRange(ParseBound(Find(props, "SCAMIN")), ParseBound(Find(props, "SCAMAX")))
  }

  /** A bound attribute that is absent or that stoi rejects. */
  predicate Unreadable(text: Option<string>) {
    text.None? || Stoi.Stoi(text.value).None?
  }

  /** With neither bound readable (absent or rejected by stoi) the feature
      is visible at every zoom; a lone readable bound maps through findZoom
      against the default 0 of the other; with both written as plain
      decimals (SCAMIN the larger) the range is the two mapped zooms. */
  lemma ScaleRangeOfFields(props: StrMap, scamin: int, scamax: int)
    ensures Find(props, "SCAMIN").None? && Find(props, "SCAMAX").None? ==>
      GetScaleRange(props) == ZRange(0, OneToOneZoom)
    ensures Unreadable(Find(props, "SCAMIN")) && Unreadable(Find(props, "SCAMAX")) ==>
      GetScaleRange(props) == ZRange(0, OneToOneZoom)
    ensures (0 < scamin <= Stoi.IntMax &&
             Find(props, "SCAMIN") == Some(Stoi.ToDecimal(scamin)) &&
             Unreadable(Find(props, "SCAMAX"))) ==>
      GetScaleRange(props) == ZRange(FindZoom(scamin), OneToOneZoom)
    ensures (0 < scamax <= Stoi.IntMax && FindZoom(scamax) >= 0 &&
             Unreadable(Find(props, "SCAMIN")) &&
             Find(props, "SCAMAX") == Some(Stoi.ToDecimal(scamax))) ==>
      GetScaleRange(props) == ZRange(0, FindZoom(scamax))
    ensures (0 < scamax <= Stoi.IntMax && FindZoom(scamax) < 0 &&
             Unreadable(Find(props, "SCAMIN")) &&
             Find(props, "SCAMAX") == Some(Stoi.ToDecimal(scamax))) ==>
      GetScaleRange(props) == ZRange(FindZoom(scamax), 0)
    ensures (0 < scamax <= scamin <= Stoi.IntMax &&
             Find(props, "SCAMIN") == Some(Stoi.ToDecimal(scamin)) &&
             Find(props, "SCAMAX") == Some(Stoi.ToDecimal(scamax))) ==>
      GetScaleRange(props) == ZRange(FindZoom(scamin), FindZoom(scamax))
  {
    Stoi.StoiOfDecimal(scamin, "");
    Stoi.StoiOfDecimal(scamax, "");
    assert Stoi.ToDecimal(scamin) + "" == Stoi.ToDecimal(scamin);
    assert Stoi.ToDecimal(scamax) + "" == Stoi.ToDecimal(scamax);
    if 0 < scamax <= scamin {
      ZRangeOfOrderedBounds(scamin, scamax);
    }
    if 0 < scamin {
      ZRangeOneBound(scamin);
    }
    if 0 < scamax {
      ZRangeOneBound(scamax);
    }
  }

  /** geometryToGeoJson applied only when a geometry is present. */
  function GeometryText(g: Option<Geometry>): string {
    match g
    case None => ""
    case Some(geometry) => geometry.geoJson
  }

  /** The Feature record built for one source feature of a layer. */
  function BuildFeature(layerName: string, raw: RawFeature): (f: Feature)
    ensures f.layer == layerName
    ensures f.minZ <= f.maxZ <= OneToOneZoom
    ensures ZRange(f.minZ, f.maxZ) == GetScaleRange(FeatureProperties(layerName, raw))
    ensures f.lnamRefs == raw.lnamRefs.GetOr([])
    ensures f.geomGeoJson == GeometryText(raw.geometry)
    ensures raw.geometry.None? ==> f.geomGeoJson == ""
  {
    var props := FeatureProperties(layerName, raw);
    var zr := GetScaleRange(props);
    Feature(layerName, GeometryText(raw.geometry), ToJsonObject(props), zr.minZ, zr.maxZ, raw.lnamRefs.GetOr([]))
  }

  /** The stored properties text is JSON that reads back as exactly the
      feature's properties: its present fields, plus METERS on SOUNDG
      depth points. */
  lemma BuildFeatureProperties(layerName: string, raw: RawFeature, key: string)
    ensures var f := BuildFeature(layerName, raw);
      JsonRead.ReadObject(f.propsJson) == Some(FeatureProperties(layerName, raw)) &&
      (key != "METERS" ==> Find(FeatureProperties(layerName, raw), key) == LastPresent(raw.fields, key))
  {
    JsonRead.ObjectRoundTrip(FeatureProperties(layerName, raw));
    FeaturePropertiesKeys(layerName, raw, key);
  }

  /** One record per source feature, in source order. */
  function BuildAll(layerName: string, raws: seq<RawFeature>): (fs: seq<Feature>)
    ensures |fs| == |raws|
    ensures forall i :: 0 <= i < |raws| ==> fs[i] == BuildFeature(layerName, raws[i])
  {
    if |raws| == 0 then [] else [BuildFeature(layerName, raws[0])] + BuildAll(layerName, raws[1..])
  }

  /** getLayerFeatures. */
  function GetLayerFeatures(r: Reader, layerName: string): (fs: seq<Feature>)
    ensures forall i :: 0 <= i < |fs| ==> fs[i].layer == layerName
  {
    if !IsOpen(r) || IsExcludedLayer(layerName) then []
    else
      match FindLayer(r.dataset.value.layers, layerName)
      case None => []
      case Some(layer) => BuildAll(layerName, layer.features)
  }

  /** A closed reader, an excluded layer and a missing layer give nothing;
      any other layer gives exactly one record per source feature, in
      order, each tagged with the layer's name. */
  lemma LayerFeaturesShape(r: Reader, layerName: string)
    ensures !IsOpen(r) || IsExcludedLayer(layerName) ==> GetLayerFeatures(r, layerName) == []
    ensures IsOpen(r) && FindLayer(r.dataset.value.layers, layerName).None? ==> GetLayerFeatures(r, layerName) == []
    ensures IsOpen(r) && !IsExcludedLayer(layerName) && FindLayer(r.dataset.value.layers, layerName).Some? ==>
      var raws := FindLayer(r.dataset.value.layers, layerName).value.features;
      |GetLayerFeatures(r, layerName)| == |raws| &&
      forall i :: 0 <= i < |raws| ==>
        GetLayerFeatures(r, layerName)[i] == BuildFeature(layerName, raws[i])
  {
  }

  /** What getAllFeatures takes from one layer name. */
  function LayerPart(r: Reader, layerName: string): seq<Feature> {
    if IsExcludedLayer(layerName) then [] else GetLayerFeatures(r, layerName)
  }

  /** getAllFeatures over a list of layer names. */
  function FeaturesOfLayers(r: Reader, names: seq<string>): seq<Feature>
  {
    if |names| == 0 then []
    else
      LayerPart(r, names[0]) + FeaturesOfLayers(r, names[1..])
  }

  /** Every record of `fs` comes from one of `names` and no excluded layer. */
  predicate FromLayers(fs: seq<Feature>, names: seq<string>) {
    forall i :: 0 <= i < |fs| ==> fs[i].layer in names && !IsExcludedLayer(fs[i].layer)
  }

  lemma LayerPartTagged(r: Reader, names: seq<string>)
    requires |names| > 0
    ensures FromLayers(LayerPart(r, names[0]), names)
  {
  }

  lemma FromLayersConcat(a: seq<Feature>, b: seq<Feature>, names: seq<string>, more: seq<string>)
    requires FromLayers(a, names) && FromLayers(b, more)
    requires forall n :: n in more ==> n in names
    ensures FromLayers(a + b, names)
  {
    forall i | 0 <= i < |a + b|
      ensures (a + b)[i].layer in names && !IsExcludedLayer((a + b)[i].layer)
    {
      if i >= |a| {
        assert (a + b)[i] == b[i - |a|];
      }
    }
  }

  /** Every record comes from one of the named layers, none excluded. */
  lemma {:induction false} FeaturesOfLayersTagged(r: Reader, names: seq<string>)
    ensures FromLayers(FeaturesOfLayers(r, names), names)
  {
    if |names| > 0 {
      FeaturesOfLayersTagged(r, names[1..]);
      LayerPartTagged(r, names);
      FromLayersConcat(LayerPart(r, names[0]), FeaturesOfLayers(r, names[1..]), names, names[1..]);
    }
  }

  /** getAllFeatures: the layers' records concatenated in getLayerNames order. */
  function GetAllFeatures(r: Reader): (fs: seq<Feature>)
    ensures forall i :: 0 <= i < |fs| ==> fs[i].layer in GetLayerNames(r) && !IsExcludedLayer(fs[i].layer)
  {
    if !IsOpen(r) then []
    else
      FeaturesOfLayersTagged(r, GetLayerNames(r));
      FeaturesOfLayers(r, GetLayerNames(r))
  }

  /** Reference reading of a dataset: every non-excluded layer's source
      features, one record each, layer after layer. */
  function SourceRecords(layers: seq<Layer>): seq<Feature> {
    if |layers| == 0 then []
    else
      var here := if IsExcludedLayer(layers[0].name) then [] else BuildAll(layers[0].name, layers[0].features);
      here + SourceRecords(layers[1..])
  }

  predicate DistinctNames(layers: seq<Layer>) {
    forall i, j :: 0 <= i < j < |layers| ==> layers[i].name != layers[j].name
  }

  /** When the dataset's layer names are distinct (as S-57 object classes
      are), getAllFeatures is exactly one record per source feature of the
      non-excluded layers, in layer order. */
  lemma AllFeaturesAreSourceRecords(r: Reader)
    requires IsOpen(r) && DistinctNames(r.dataset.value.layers)
    ensures GetAllFeatures(r) == SourceRecords(r.dataset.value.layers)
  {
    SuffixRecords(r, 0);
    assert r.dataset.value.layers[0..] == r.dataset.value.layers;
  }

  lemma {:induction false} SuffixRecords(r: Reader, k: nat)
    requires IsOpen(r) && DistinctNames(r.dataset.value.layers)
    requires k <= |r.dataset.value.layers|
    ensures FeaturesOfLayers(r, NamesOf(r.dataset.value.layers[k..])) == SourceRecords(r.dataset.value.layers[k..])
    decreases |r.dataset.value.layers| - k
  {
    var layers := r.dataset.value.layers;
    if k < |layers| {
      SuffixRecords(r, k + 1);
      var names := NamesOf(layers[k..]);
      assert names[1..] == NamesOf(layers[k + 1..]);
      assert layers[k..][1..] == layers[k + 1..];
      FindLayerFirst(layers, k);
    }
  }

  lemma FeaturesOfLayersStep(r: Reader, names: seq<string>, i: nat)
    requires i < |names|
    ensures FeaturesOfLayers(r, names[i..]) == LayerPart(r, names[i]) + FeaturesOfLayers(r, names[i + 1..])
  {
    assert names[i..][1..] == names[i + 1..];
  }

  /** Hands every record of one layer to the callback, in order. */
  method VisitAll(features: seq<Feature>, start: seq<Feature>) returns (visited: seq<Feature>)
    ensures visited == start + features
  {
    var j := 0;
    visited := start;
    while j < |features|
      invariant 0 <= j <= |features|
      invariant visited == start + features[..j]
    {
      visited := visited + [features[j]];
      j := j + 1;
      assert features[..j] == features[..j - 1] + [features[j - 1]];
    }
    assert features[..j] == features;
  }

  lemma ConcatAssociates(a: seq<Feature>, b: seq<Feature>, c: seq<Feature>)
    ensures (a + b) + c == a + (b + c)
  {
  }

  /** processFeatures: the callback sees every record getAllFeatures
      returns, in the same order. The returned sequence is the list of
      callback arguments. */
  method ProcessFeatures(r: Reader) returns (visited: seq<Feature>)
    ensures visited == GetAllFeatures(r)
  {
    visited := [];
    if !IsOpen(r) {
      return;
    }
    var names := GetLayerNames(r);
    ghost var all := FeaturesOfLayers(r, names);
    var i := 0;
    assert names[0..] == names;
    while i < |names|
      invariant 0 <= i <= |names|
      invariant visited + FeaturesOfLayers(r, names[i..]) == all
    {
      FeaturesOfLayersStep(r, names, i);
      ghost var rest := FeaturesOfLayers(r, names[i + 1..]);
      var part := LayerPart(r, names[i]);
      ghost var before := visited;
      visited := VisitAll(part, visited);
      ConcatAssociates(before, part, rest);
      i := i + 1;
    }
    assert names[i..] == [];
  }

  /** What reading the first feature of a named layer yields: nothing when
      the reader is closed, the layer is missing or has no feature, and
      otherwise, per key, the last present field of that feature. */
  ghost predicate FirstFeatureRead(r: Reader, layerName: string, props: StrMap) {
    if !IsOpen(r) then |props| == 0
    else
      match FindLayer(r.dataset.value.layers, layerName)
      case None => |props| == 0
      case Some(layer) =>
        if |layer.features| == 0 then |props| == 0
        else forall k :: Find(props, k) == LastPresent(layer.features[0].fields, k)
  }

  /** Properties of the first feature of a named layer, or none. */
  function FirstFeatureProperties(r: Reader, layerName: string): (props: StrMap)
    ensures FirstFeatureRead(r, layerName, props)
  {
    if !IsOpen(r) then []
    else
      match FindLayer(r.dataset.value.layers, layerName)
      case None => []
      case Some(layer) =>
        if |layer.features| == 0 then [] else ExtractProperties(layer.features[0].fields)
  }

  /** getDsidProperties. */
  function GetDsidProperties(r: Reader): (props: StrMap)
    ensures FirstFeatureRead(r, "DSID", props)
  {
    FirstFeatureProperties(r, "DSID")
  }

  /** getMCovrProperties. */
  function GetMCovrProperties(r: Reader): (props: StrMap)
    ensures FirstFeatureRead(r, "M_COVR", props)
  {
    FirstFeatureProperties(r, "M_COVR")
  }

  /** getCoverageGeoJson: the first M_COVR feature's geometry, else "{}". */
  function GetCoverageGeoJson(r: Reader): (text: string)
    ensures text != "{}" ==> (IsOpen(r) &&
      var layer := FindLayer(r.dataset.value.layers, "M_COVR");
      layer.Some? && |layer.value.features| > 0 && layer.value.features[0].geometry.Some? &&
      text == layer.value.features[0].geometry.value.geoJson)
    ensures !IsOpen(r) ==> text == "{}"
    ensures IsOpen(r) ==>
      var layer := FindLayer(r.dataset.value.layers, "M_COVR");
      layer.Some? && |layer.value.features| > 0 && layer.value.features[0].geometry.Some? ==>
        text == layer.value.features[0].geometry.value.geoJson
  {
    if !IsOpen(r) then "{}"
    else
      match FindLayer(r.dataset.value.layers, "M_COVR")
      case None => "{}"
      case Some(layer) =>
        if |layer.features| == 0 then "{}"
        else
          match layer.features[0].geometry
          case None => "{}"
          case Some(g) => g.geoJson
  }

  /** The compilation scale from DSPM_CSCL; 0 when absent or unparsable. */
  function ChartScale(dsid: StrMap): (scale: int)
    ensures Stoi.IntMin <= scale <= Stoi.IntMax
    ensures Find(dsid, "DSPM_CSCL").None? ==> scale == 0
  {
    ParseBound(Find(dsid, "DSPM_CSCL"))
  }

  /** DSPM_CSCL's decimal value becomes the scale; a missing field, or text
      with no digit after the optional sign, gives 0. */
  lemma ChartScaleOfFields(dsid: StrMap, n: int)
    ensures Find(dsid, "DSPM_CSCL").None? ==> ChartScale(dsid) == 0
    ensures Stoi.IntMin <= n <= Stoi.IntMax && Find(dsid, "DSPM_CSCL") == Some(Stoi.ToDecimal(n)) ==>
      ChartScale(dsid) == n
    ensures Find(dsid, "DSPM_CSCL").Some? && Stoi.Stoi(Find(dsid, "DSPM_CSCL").value).None? ==>
      ChartScale(dsid) == 0
  {
    if Stoi.IntMin <= n <= Stoi.IntMax && Find(dsid, "DSPM_CSCL") == Some(Stoi.ToDecimal(n)) {
      Stoi.StoiOfDecimal(n, "");
      assert Stoi.ToDecimal(n) + "" == Stoi.ToDecimal(n);
    }
  }

  /** A DSPM_CSCL without digits, such as "x1", falls back to scale 0. */
  lemma ChartScaleWithoutDigits(dsid: StrMap)
    requires Find(dsid, "DSPM_CSCL") == Some("x1")
    ensures ChartScale(dsid) == 0
  {
    assert Stoi.SkipSpace("x1") == "x1" by { Stoi.NoLeadingSpace("x1"); }
    Stoi.StoiNeedsADigit("x1");
  }

  /** The chart's native zoom: findZoom of a positive scale, else 0. */
  function ChartZoom(scale: int): (zoom: int)
    requires scale <= Stoi.IntMax
    ensures scale > 0 ==> zoom == FindZoom(scale)
    ensures scale <= 0 ==> zoom == 0
    ensures -3 <= zoom <= OneToOneZoom
  {
    if scale > 0 then
      FindZoomInt32Range(scale);
      FindZoom(scale)
    else 0
  }

  /** getChartInfo. */
  function GetChartInfo(r: Reader): (info: ChartInfo)
    ensures !IsOpen(r) ==> info == DefaultChartInfo()
    ensures IsOpen(r) ==> info.fileName == Paths.FileName(r.filePath)
    ensures IsOpen(r) ==> info.name == Find(GetDsidProperties(r), "DSNM").GetOr(Paths.Stem(r.filePath))
    ensures Stoi.IntMin <= info.scale <= Stoi.IntMax
    ensures info.scale > 0 ==> info.zoom == FindZoom(info.scale)
    ensures info.scale <= 0 ==> info.zoom == 0
    ensures -3 <= info.zoom <= OneToOneZoom
    ensures IsOpen(r) ==> info.scale == ChartScale(GetDsidProperties(r))
    ensures IsOpen(r) ==> info.updated == Find(GetDsidProperties(r), "UADT").GetOr("")
    ensures IsOpen(r) ==> info.issued == Find(GetDsidProperties(r), "ISDT").GetOr("")
    ensures IsOpen(r) ==> info.covrGeoJson == GetCoverageGeoJson(r)
    ensures IsOpen(r) ==> JsonRead.ReadObject(info.dsidProps) == Some(GetDsidProperties(r))
    ensures IsOpen(r) ==> JsonRead.ReadObject(info.chartTxt) == Some(GetMCovrProperties(r))
  {
    if !IsOpen(r) then DefaultChartInfo()
    else
      var dsid := GetDsidProperties(r);
      var scale := ChartScale(dsid);
      JsonRead.ObjectRoundTrip(dsid);
      JsonRead.ObjectRoundTrip(GetMCovrProperties(r));
      ChartInfo(Find(dsid, "DSNM").GetOr(Paths.Stem(r.filePath)), scale, Paths.FileName(r.filePath),
                Find(dsid, "UADT").GetOr(""), Find(dsid, "ISDT").GetOr(""), ChartZoom(scale),
                GetCoverageGeoJson(r), ToJsonObject(dsid), ToJsonObject(GetMCovrProperties(r)))
  }
}

=== FILE: sorted_map.dfy ===
/** std::map<std::string, std::string> as the model sees it: a sequence of
    key/value entries kept in strictly ascending key order, so that iterating
    it visits the keys in the order the source's range-for loops do. */
module SortedMap {
  import opened Wrappers
  import opened StrOrder

  datatype Entry = Entry(key: string, value: string)

  /** Keys strictly ascending; in particular no key occurs twice. */
  predicate Sorted(a: seq<Entry>) {
    forall i, j :: 0 <= i < j < |a| ==> Less(a[i].key, a[j].key)
  }

  type StrMap = a: seq<Entry> | Sorted(a) witness []

  function Keys(a: seq<Entry>): set<string> {
    set i | 0 <= i < |a| :: a[i].key
  }

  /** The abstract map an entry sequence denotes. */
  function ToMap(a: seq<Entry>): (m: map<string, string>)
    ensures m.Keys == Keys(a)
  {
    if |a| == 0 then map[]
    else
      var rest := ToMap(a[1..]);
      KeysCons(a);
      rest[a[0].key := a[0].value]
  }

  lemma KeysCons(a: seq<Entry>)
    requires |a| > 0
    ensures Keys(a) == Keys(a[1..]) + {a[0].key}
  {
    forall k | k in Keys(a) ensures k in Keys(a[1..]) + {a[0].key} {
      var i :| 0 <= i < |a| && a[i].key == k;
      if i > 0 { assert a[1..][i - 1].key == k; }
    }
  }

  /** The source's `props.find(key)`: a scan that agrees with the map the
      entries denote. */
  function Find(a: seq<Entry>, key: string): (r: Option<string>)
    ensures r.Some? <==> key in ToMap(a)
    ensures r.Some? ==> r.value == ToMap(a)[key]
  {
    if |a| == 0 then None
    else if a[0].key == key then Some(a[0].value)
    else Find(a[1..], key)
  }

  /** The source's `props[key] = value`: insert, or overwrite the value of
      an existing key, keeping the keys in order. */
  function Put(a: StrMap, key: string, value: string): (r: StrMap)
    ensures Keys(r) == Keys(a) + {key}
    ensures ToMap(r) == ToMap(a)[key := value]
  {
    PutSorted(a, key, value);
    Insert(a, key, value)
  }

  /** The position search behind Put, on any entry sequence. */
  function Insert(a: seq<Entry>, key: string, value: string): (r: seq<Entry>)
    ensures Keys(r) == Keys(a) + {key}
    ensures ToMap(r) == ToMap(a)[key := value]
  {
    if |a| == 0 then
      assert [Entry(key, value)][0].key == key;
      [Entry(key, value)]
    else if a[0].key == key then
      InsertReplaceHead(a, key, value);
      [Entry(key, value)] + a[1..]
    else if Less(key, a[0].key) then
      InsertBeforeHead(a, key, value);
      [Entry(key, value)] + a
    else
      var tail := Insert(a[1..], key, value);
      InsertAfterHead(a, tail, key, value);
      [a[0]] + tail
  }

  lemma InsertReplaceHead(a: seq<Entry>, key: string, value: string)
    requires |a| > 0 && a[0].key == key
    ensures ToMap([Entry(key, value)] + a[1..]) == ToMap(a)[key := value]
  {
    var r := [Entry(key, value)] + a[1..];
    assert r[1..] == a[1..];
    UpdateTwice(ToMap(a[1..]), key, a[0].value, value);
  }

  lemma UpdateTwice(m: map<string, string>, k: string, v1: string, v2: string)
    ensures m[k := v1][k := v2] == m[k := v2]
  {
  }

  lemma InsertBeforeHead(a: seq<Entry>, key: string, value: string)
    requires |a| > 0
    ensures ToMap([Entry(key, value)] + a) == ToMap(a)[key := value]
  {
    var r := [Entry(key, value)] + a;
    assert r[1..] == a;
    KeysCons(r);
  }

  lemma InsertAfterHead(a: seq<Entry>, tail: seq<Entry>, key: string, value: string)
    requires |a| > 0 && a[0].key != key
    requires ToMap(tail) == ToMap(a[1..])[key := value]
    ensures ToMap([a[0]] + tail) == ToMap(a)[key := value]
  {
    var r := [a[0]] + tail;
    assert r[1..] == tail;
    assert ToMap(r) == ToMap(a[1..])[key := value][a[0].key := a[0].value];
    UpdatesCommute(ToMap(a[1..]), key, value, a[0].key, a[0].value);
  }

  lemma UpdatesCommute(m: map<string, string>, k1: string, v1: string, k2: string, v2: string)
    requires k1 != k2
    ensures m[k1 := v1][k2 := v2] == m[k2 := v2][k1 := v1]
  {
  }

  lemma {:induction false} PutSorted(a: StrMap, key: string, value: string)
    ensures Sorted(Insert(a, key, value))
    decreases |a|
  {
    if |a| == 0 {
    } else if a[0].key == key {
      var r := [Entry(key, value)] + a[1..];
      assert forall i :: 0 < i < |r| ==> r[i] == a[i];
    } else if Less(key, a[0].key) {
      SortedBeforeHead(a, key, value);
    } else {
      LessTrichotomous(key, a[0].key);
      PutSorted(a[1..], key, value);
      SortedAfterHead(a, Insert(a[1..], key, value), key, value);
    }
  }

  lemma SortedBeforeHead(a: StrMap, key: string, value: string)
    requires |a| > 0 && Less(key, a[0].key)
    ensures Sorted([Entry(key, value)] + a)
  {
    var r: seq<Entry> := [Entry(key, value)] + a;
    forall i, j | 0 <= i < j < |r| ensures Less(r[i].key, r[j].key) {
      if i == 0 {
        if j > 1 {
          LessTransitive(key, a[0].key, a[j - 1].key);
        }
      } else {
        assert r[i] == a[i - 1] && r[j] == a[j - 1];
      }
    }
  }

  lemma SortedAfterHead(a: StrMap, tail: StrMap, key: string, value: string)
    requires |a| > 0 && Less(a[0].key, key)
    requires Keys(tail) == Keys(a[1..]) + {key}
    ensures Sorted([a[0]] + tail)
  {
    var r: seq<Entry> := [a[0]] + tail;
    forall i, j | 0 <= i < j < |r| ensures Less(r[i].key, r[j].key) {
      if i == 0 {
        assert r[j] == tail[j - 1];
        assert r[j].key in Keys(tail);
        if r[j].key != key {
          var m :| 0 <= m < |a[1..]| && a[1..][m].key == r[j].key;
          assert a[m + 1].key == r[j].key;
        }
      } else {
        assert r[i] == tail[i - 1] && r[j] == tail[j - 1];
      }
    }
  }
}

=== FILE: stoi.dfy ===
/** std::stoi as the metadata parser uses it: skip leading white space, take
    an optional sign and the longest run of decimal digits, ignore whatever
    follows; no digits, or a value outside the 32-bit int range, is a
    failure (the source catches the exception and keeps 0). */
module Stoi {
  import opened Wrappers

  const IntMin: int := -0x8000_0000
  const IntMax: int := 0x7FFF_FFFF

  /** isspace in the C locale: space, \t, \n, \v, \f, \r. */
  predicate IsSpace(c: char) {
    c == ' ' || 9 <= c as int <= 13
  }

  predicate IsDigit(c: char) {
    '0' <= c <= '9'
  }

  predicate AllDigits(s: string) {
    forall i :: 0 <= i < |s| ==> IsDigit(s[i])
  }

  function SkipSpace(s: string): (r: string)
    ensures |r| <= |s| && r == s[|s| - |r|..]
    ensures |r| == 0 || !IsSpace(r[0])
    ensures forall i :: 0 <= i < |s| - |r| ==> IsSpace(s[i])
  {
    if |s| > 0 && IsSpace(s[0]) then SkipSpace(s[1..]) else s
  }

  /** Length of the run of digits at the front of `s`. */
  function DigitRun(s: string): (n: nat)
    ensures n <= |s| && AllDigits(s[..n])
    ensures n == |s| || !IsDigit(s[n])
  {
    if |s| > 0 && IsDigit(s[0]) then
      var n := 1 + DigitRun(s[1..]);
      assert forall i :: 1 <= i < n ==> s[..n][i] == s[1..][..n - 1][i - 1];
      n
    else 0
  }

  function DigitValue(c: char): int {
    c as int - '0' as int
  }

  /** The value of a digit string, most significant digit first. */
  function DigitsValue(d: string): (v: nat)
    requires AllDigits(d)
  {
    if |d| == 0 then 0 else 10 * DigitsValue(d[..|d| - 1]) + DigitValue(d[|d| - 1])
  }

  function Stoi(s: string): (r: Option<int>)
    ensures r.Some? ==> IntMin <= r.value <= IntMax
  {
    ParseSigned(SkipSpace(s))
  }

  /** The digit run at the front of `u` and its value; None without digits. */
  function ParseUnsigned(u: string): (r: Option<nat>)
    ensures r.Some? <==> |u| > 0 && IsDigit(u[0])
  {
    var n := DigitRun(u);
    if n == 0 then None else Some(DigitsValue(u[..n]))
  }

  /** A magnitude with its sign applied, kept only when it fits. */
  function Signed(negative: bool, m: Option<nat>): (r: Option<int>)
    ensures r.Some? ==> IntMin <= r.value <= IntMax
  {
    match m
    case None => None
    case Some(magnitude) =>
      var m: int := magnitude;
      var v := if negative then -m else m;
      if IntMin <= v <= IntMax then Some(v) else None
  }

  /** What strtol reads once leading white space is gone. */
  function ParseSigned(t: string): (r: Option<int>)
    ensures r.Some? ==> IntMin <= r.value <= IntMax
  {
    if |t| > 0 && (t[0] == '-' || t[0] == '+') then Signed(t[0] == '-', ParseUnsigned(t[1..]))
    else Signed(false, ParseUnsigned(t))
  }

  /** The source's `try { x = std::stoi(text); } catch (...) {}` starting
      from 0. */
  function ParseOrZero(text: string): (n: int)
    ensures IntMin <= n <= IntMax
  {
    Stoi(text).GetOr(0)
  }

  /** The fallback reads every 32-bit decimal back as itself. */
  lemma ParseOrZeroOfDecimal(n: int)
    requires IntMin <= n <= IntMax
    ensures ParseOrZero(ToDecimal(n)) == n
  {
    StoiOfDecimal(n, "");
    assert ToDecimal(n) + "" == ToDecimal(n);
  }

  /** Decimal digits of a natural number, no leading zeros. */
  function NatDigits(n: nat): (d: string)
    ensures |d| > 0 && AllDigits(d)
    ensures DigitsValue(d) == n
  {
    if n < 10 then [('0' as int + n) as char]
    else
      var d := NatDigits(n / 10) + [('0' as int + n % 10) as char];
      assert d[..|d| - 1] == NatDigits(n / 10);
      d
  }

  /** Decimal text of an integer, with '-' for negatives. */
  function ToDecimal(n: int): string {
    if n < 0 then "-" + NatDigits(-n) else NatDigits(n)
  }

  /** Reading back the decimal text of any integer, followed by anything that
      does not continue the digit run, gives the integer when it fits in 32
      bits and a failure otherwise. */
  lemma StoiOfDecimal(n: int, rest: string)
    requires |rest| == 0 || !IsDigit(rest[0])
    ensures Stoi(ToDecimal(n) + rest) == if IntMin <= n <= IntMax then Some(n) else None
  {
    if n < 0 {
      StoiOfNegative(-n, rest);
    } else {
      StoiOfNonNegative(n, rest);
    }
  }

  lemma StoiOfNonNegative(n: nat, rest: string)
    requires |rest| == 0 || !IsDigit(rest[0])
    ensures Stoi(NatDigits(n) + rest) == Signed(false, Some(n))
  {
    var d := NatDigits(n);
    DigitRunOfDigits(d, rest);
    assert (d + rest)[..|d|] == d;
    assert SkipSpace(d + rest) == d + rest by { assert IsDigit((d + rest)[0]); }
    ParseNonNegative(d + rest, |d|);
  }

  lemma StoiOfNegative(n: nat, rest: string)
    requires n > 0
    requires |rest| == 0 || !IsDigit(rest[0])
    ensures Stoi(("-" + NatDigits(n)) + rest) == Signed(true, Some(n))
  {
    var d := NatDigits(n);
    var u := d + rest;
    DigitRunOfDigits(d, rest);
    assert u[..|d|] == d;
    var t := ("-" + d) + rest;
    assert t == "-" + u;
    NoLeadingSpace(t);
    ParseNegative(u, |d|);
  }

  lemma NoLeadingSpace(s: string)
    requires |s| > 0 && !IsSpace(s[0])
    ensures SkipSpace(s) == s
  {
  }

  lemma ParseNonNegative(u: string, n: nat)
    requires 0 < n <= |u| && DigitRun(u) == n
    ensures ParseSigned(u) == Signed(false, Some(DigitsValue(u[..n])))
  {
    assert u[0] != '-' && u[0] != '+' by { assert IsDigit(u[..n][0]); }
  }

  lemma ParseNegative(u: string, n: nat)
    requires 0 < n <= |u| && DigitRun(u) == n
    ensures ParseSigned("-" + u) == Signed(true, Some(DigitsValue(u[..n])))
  {
    var t := "-" + u;
    assert t[0] == '-' && t[1..] == u;
  }

  lemma DigitRunOfDigits(d: string, rest: string)
    requires AllDigits(d)
    requires |rest| == 0 || !IsDigit(rest[0])
    ensures DigitRun(d + rest) == |d|
  {
    if |d| > 0 {
      assert (d + rest)[1..] == d[1..] + rest;
      DigitRunOfDigits(d[1..], rest);
    } else {
      assert d + rest == rest;
    }
  }

  /** Leading white space never changes the outcome. */
  lemma StoiSkipsLeadingSpace(ws: string, s: string)
    requires forall i :: 0 <= i < |ws| ==> IsSpace(ws[i])
    ensures Stoi(ws + s) == Stoi(s)
  {
    SkipSpaceOfSpaces(ws, s);
  }

  lemma {:induction false} SkipSpaceOfSpaces(ws: string, s: string)
    requires forall i :: 0 <= i < |ws| ==> IsSpace(ws[i])
    ensures SkipSpace(ws + s) == SkipSpace(s)
    decreases |ws|
  {
    if |ws| > 0 {
      assert (ws + s)[1..] == ws[1..] + s;
      SkipSpaceOfSpaces(ws[1..], s);
    } else {
      assert ws + s == s;
    }
  }

  /** Text whose first non-space character is neither a digit nor a sign
      followed by a digit is a failure: it parses to 0. */
  lemma StoiNeedsADigit(s: string)
    requires var t := SkipSpace(s);
      var u := if |t| > 0 && (t[0] == '-' || t[0] == '+') then t[1..] else t;
      |u| == 0 || !IsDigit(u[0])
    ensures Stoi(s) == None && ParseOrZero(s) == 0
  {
  }
}

=== FILE: str_order.dfy ===
/** The ordering std::string's operator< uses, and so the iteration order of
    std::map<std::string, …> and the result order of std::sort over paths:
    lexicographic by character code. Characters are compared as unsigned
    values, so for UTF-8 text the byte order and the code-point order agree. */
module StrOrder {

  /** Strict lexicographic order: a proper prefix comes first. */
  predicate Less(a: string, b: string)
    decreases |a|
  {
    if |a| == 0 then |b| > 0
    else if |b| == 0 then false
    else a[0] < b[0] || (a[0] == b[0] && Less(a[1..], b[1..]))
  }

  predicate LessEq(a: string, b: string) {
    a == b || Less(a, b)
  }

  lemma {:induction false} LessIrreflexive(a: string)
    ensures !Less(a, a)
    decreases |a|
  {
    if |a| > 0 {
      LessIrreflexive(a[1..]);
    }
  }

  lemma {:induction false} LessAsymmetric(a: string, b: string)
    requires Less(a, b)
    ensures !Less(b, a)
    decreases |a|
  {
    if |a| > 0 && |b| > 0 && a[0] == b[0] {
      LessAsymmetric(a[1..], b[1..]);
    }
  }

  lemma {:induction false} LessTransitive(a: string, b: string, c: string)
    requires Less(a, b) && Less(b, c)
    ensures Less(a, c)
    decreases |a|
  {
    if |a| > 0 && a[0] == b[0] && b[0] == c[0] {
      LessTransitive(a[1..], b[1..], c[1..]);
    }
  }

  lemma {:induction false} LessTrichotomous(a: string, b: string)
    ensures Less(a, b) || a == b || Less(b, a)
    decreases |a|
  {
    if |a| > 0 && |b| > 0 && a[0] == b[0] {
      LessTrichotomous(a[1..], b[1..]);
      if a[1..] == b[1..] {
        assert a == [a[0]] + a[1..];
        assert b == [b[0]] + b[1..];
      }
    }
  }

  /** LessEq is a total order: reflexive, antisymmetric, transitive, total. */
  lemma LessEqTotalOrder(a: string, b: string, c: string)
    ensures LessEq(a, a)
    ensures LessEq(a, b) && LessEq(b, a) ==> a == b
    ensures LessEq(a, b) && LessEq(b, c) ==> LessEq(a, c)
    ensures LessEq(a, b) || LessEq(b, a)
  {
    LessTrichotomous(a, b);
    if Less(a, b) && Less(b, a) {
      LessAsymmetric(a, b);
    }
    if Less(a, b) && Less(b, c) {
      LessTransitive(a, b, c);
    }
  }
}

=== FILE: str_sort.dfy ===
/** std::sort over a vector of strings, as an insertion sort: the result is
    ascending in StrOrder and a permutation of the input, and so it is the
    same whatever order the input came in. */
module StrSort {
  import opened StrOrder

  predicate Ascending(xs: seq<string>) {
    forall i, j :: 0 <= i < j < |xs| ==> LessEq(xs[i], xs[j])
  }

  /** Places `x` before the first element it does not exceed. */
  function InsertSorted(x: string, xs: seq<string>): (r: seq<string>)
    requires Ascending(xs)
    ensures Ascending(r)
    ensures multiset(r) == multiset(xs) + multiset{x}
    decreases |xs|
  {
    if |xs| == 0 then [x]
    else if LessEq(x, xs[0]) then
      InsertAtFront(x, xs);
      [x] + xs
    else
      var tail := InsertSorted(x, xs[1..]);
      InsertBehindHead(x, xs, tail);
      [xs[0]] + tail
  }

  lemma InsertAtFront(x: string, xs: seq<string>)
    requires Ascending(xs) && |xs| > 0 && LessEq(x, xs[0])
    ensures Ascending([x] + xs)
  {
    var r := [x] + xs;
    forall i, j | 0 <= i < j < |r| ensures LessEq(r[i], r[j]) {
      if i == 0 {
        LessEqTotalOrder(x, xs[0], xs[j - 1]);
      } else {
        assert r[i] == xs[i - 1] && r[j] == xs[j - 1];
      }
    }
  }

  lemma InsertBehindHead(x: string, xs: seq<string>, tail: seq<string>)
    requires Ascending(xs) && |xs| > 0 && !LessEq(x, xs[0])
    requires Ascending(tail) && multiset(tail) == multiset(xs[1..]) + multiset{x}
    ensures Ascending([xs[0]] + tail)
    ensures multiset([xs[0]] + tail) == multiset(xs) + multiset{x}
  {
    var r := [xs[0]] + tail;
    forall i, j | 0 <= i < j < |r| ensures LessEq(r[i], r[j]) {
      if i == 0 {
        var y := tail[j - 1];
        assert y in multiset(tail);
        if y == x {
          LessEqTotalOrder(x, xs[0], x);
        } else {
          assert y in multiset(xs[1..]);
          var k :| 0 <= k < |xs[1..]| && xs[1..][k] == y;
          assert xs[k + 1] == y;
        }
      } else {
        assert r[i] == tail[i - 1] && r[j] == tail[j - 1];
      }
    }
    assert xs == [xs[0]] + xs[1..];
  }

  /** The sorted permutation of `xs`. */
  function Sort(xs: seq<string>): (r: seq<string>)
    ensures Ascending(r)
    ensures multiset(r) == multiset(xs)
  {
    if |xs| == 0 then []
    else
      assert xs == [xs[0]] + xs[1..];
      InsertSorted(xs[0], Sort(xs[1..]))
  }

  /** Two ascending sequences holding the same strings are equal. */
  lemma {:induction false} AscendingUnique(a: seq<string>, b: seq<string>)
    requires Ascending(a) && Ascending(b) && multiset(a) == multiset(b)
    ensures a == b
    decreases |a|
  {
    assert |b| == |multiset(b)| == |multiset(a)| == |a|;
    if |a| > 0 {
      SameLeast(a, b);
      TailMultiset(a);
      TailMultiset(b);
      AscendingUnique(a[1..], b[1..]);
      assert a == [a[0]] + a[1..] && b == [b[0]] + b[1..];
    }
  }

  lemma SameLeast(a: seq<string>, b: seq<string>)
    requires Ascending(a) && Ascending(b) && multiset(a) == multiset(b)
    requires |a| > 0 && |b| > 0
    ensures a[0] == b[0]
  {
    assert a[0] in multiset(b) && b[0] in multiset(a);
    var i :| 0 <= i < |b| && b[i] == a[0];
    var j :| 0 <= j < |a| && a[j] == b[0];
    assert LessEq(b[0], b[i]) || i == 0;
    assert LessEq(a[0], a[j]) || j == 0;
    LessEqTotalOrder(a[0], b[0], a[0]);
  }

  lemma TailMultiset(a: seq<string>)
    requires |a| > 0
    ensures multiset(a[1..]) == multiset(a) - multiset{a[0]}
  {
    assert a == [a[0]] + a[1..];
  }

  /** The sorted result depends only on which strings there are, not on the
      order they arrived in. */
  lemma SortIgnoresInputOrder(xs: seq<string>, ys: seq<string>)
    requires multiset(xs) == multiset(ys)
    ensures Sort(xs) == Sort(ys)
  {
    AscendingUnique(Sort(xs), Sort(ys));
  }

  lemma SortExample()
    ensures Sort(["b.000", "a.000", "a.0000"]) == ["a.000", "a.0000", "b.000"]
  {
    var r := ["a.000", "a.0000", "b.000"];
    ExampleAscending();
    assert multiset(["b.000", "a.000", "a.0000"]) == multiset(r);
    AscendingUnique(Sort(["b.000", "a.000", "a.0000"]), r);
  }

  /** A proper prefix sorts first: "a.000" before "a.0000". */
  lemma ExampleAscending()
    ensures Ascending(["a.000", "a.0000", "b.000"])
  {
    assert Less("a.000", "a.0000") by {
      assert "a.000"[1..] == ".000" && "a.0000"[1..] == ".0000";
      assert ".000"[1..] == "000" && ".0000"[1..] == "0000";
      assert "000"[1..] == "00" && "0000"[1..] == "000";
      assert "00"[1..] == "0" && "000"[1..] == "00";
      assert "0"[1..] == "" && "00"[1..] == "0";
    }
    assert Less("a.0000", "b.000");
    LessTransitive("a.000", "a.0000", "b.000");
  }

}

=== FILE: types.dfy ===
/** The records the pipeline passes between its stages, with the defaults
    their C++ member initialisers give, and the list of structural layers
    that are never turned into features. */
module Types {
  import opened ZFinder

  /** One chart (one source file). `dsidProps` and `chartTxt` hold JSON
      object text; `covrGeoJson` holds GeoJSON text. */
  datatype ChartInfo = ChartInfo(
    name: string,
    scale: int,
    fileName: string,
    updated: string,
    issued: string,
    zoom: int,
    covrGeoJson: string,
    dsidProps: string,
    chartTxt: string)

  /** One feature of a chart: `propsJson` is JSON object text, and the zoom
      range it is visible at is [minZ, maxZ]. */
  datatype Feature = Feature(
    layer: string,
    geomGeoJson: string,
    propsJson: string,
    minZ: int,
    maxZ: int,
    lnamRefs: seq<string>)

  /** What one file's ingestion reports. */
  datatype ProcessingResult = ProcessingResult(
    success: bool,
    fileName: string,
    chartName: string,
    featureCount: int,
    errorMessage: string)

  function DefaultChartInfo(): ChartInfo {
    ChartInfo("", 0, "", "", "", 0, "", "", "")
  }

  function DefaultFeature(): Feature {
    Feature("", "", "", 0, OneToOneZoom, [])
  }

  function DefaultProcessingResult(): ProcessingResult {
    ProcessingResult(false, "", "", 0, "")
  }

  /** A freshly constructed Feature is visible at every zoom, exactly the
      range calculateZRange gives when neither bound is set. */
  lemma DefaultFeatureZoomIsUnbounded()
    ensures ZRange(DefaultFeature().minZ, DefaultFeature().maxZ) == CalculateZRange(0, 0)
  {
  }

  /** The defaults describe nothing: an unnamed chart of scale 0 at zoom
      0, and a result that reports failure with no chart and no features. */
  lemma DefaultsAreEmpty()
    ensures var c := DefaultChartInfo(); c.name == "" && c.scale == 0 && c.zoom == 0
    ensures var r := DefaultProcessingResult(); !r.success && r.chartName == "" && r.featureCount == 0
    ensures DefaultFeature().lnamRefs == [] && DefaultFeature().minZ == 0
  {
  }

  /** The topology and dataset-identification layers, in the source's order. */
  const ExcludedLayers: seq<string> := ["DSID", "IsolatedNode", "ConnectedNode", "Edge", "Face"]
}

=== FILE: wrappers.dfy ===
/** The optional-value type the model uses for std::optional, missing map
    entries and parses that can fail. */
module Wrappers {

  datatype Option<+T> = None | Some(value: T) {

    /** The encapsulated value, or `default` when there is none. */
    function GetOr(default: T): T {
      match this
      case Some(v) => v
      case None => default
    }
  }
}

=== FILE: zfinder.dfy ===
/** The zoom mapper: a chart or feature scale denominator to a discrete map
    zoom level, and a feature's SCAMIN/SCAMAX pair to an ordered zoom range. */
module ZFinder {

  /** The finest zoom level, where one map unit is one chart unit. */
  const OneToOneZoom: int := 28

  function Pow2(k: nat): (r: nat)
    ensures r >= 1
  {
    if k == 0 then 1 else 2 * Pow2(k - 1)
  }

  lemma {:induction false} Pow2Monotone(i: nat, j: nat)
    requires i <= j
    ensures Pow2(i) <= Pow2(j)
    decreases j
  {
    if i < j {
      Pow2Monotone(i, j - 1);
    }
  }

  /** How many times the source halves `scale` before the value is no
      longer above 1.0: the least k with scale <= 2^k (0 for scale <= 1). */
  function Halvings(scale: int): (k: nat)
    ensures scale <= Pow2(k)
    ensures k == 0 || Pow2(k - 1) < scale
    decreases if scale <= 1 then 0 else scale
  {
    if scale <= 1 then 0 else 1 + Halvings((scale + 1) / 2)
  }

  /** The two bounds of Halvings pin it down: at most one k satisfies them. */
  lemma HalvingsUnique(scale: int, k: nat)
    requires scale <= Pow2(k)
    requires k == 0 || Pow2(k - 1) < scale
    ensures Halvings(scale) == k
  {
    var h := Halvings(scale);
    if h < k {
      Pow2Monotone(h, k - 1);
    } else if h > k {
      Pow2Monotone(k, h - 1);
    }
  }

  /** findZoom in closed form: 28 minus the number of halvings. A scale of 1
      or less never enters the loop; a scale above 2^28 gives a negative
      zoom, down to -3 for the largest 32-bit scale. */
  function FindZoom(scale: int): (zoom: int)
    ensures zoom <= OneToOneZoom
    ensures scale <= 1 ==> zoom == OneToOneZoom
    ensures scale <= Pow2(OneToOneZoom - zoom)
    ensures zoom == OneToOneZoom || Pow2(OneToOneZoom - zoom - 1) < scale
  {
    OneToOneZoom - Halvings(scale)
  }

  /** The source's loop, run on an exact real in place of the double: each
      halving of an integer-valued double below 2^31 is exact, so this is
      the value the loop computes. */
  method FindZoomByHalving(scale: int) returns (zoom: int)
    ensures zoom == FindZoom(scale)
  {
    zoom := OneToOneZoom;
    var zScale: real := scale as real;
    ghost var k: nat := 0;
    ghost var p: nat := 1;
    while zScale > 1.0
      invariant p == Pow2(k) && zoom == OneToOneZoom - k
      invariant zScale * (p as real) == scale as real
      invariant k == 0 || Pow2(k - 1) < scale
      decreases scale - p
    {
      AboveOneIffAbovePower(zScale, p, scale);
      HalveStep(zScale, p);
      zScale := zScale / 2.0;
      zoom := zoom - 1;
      k := k + 1;
      p := 2 * p;
    }
    AboveOneIffAbovePower(zScale, p, scale);
    HalvingsUnique(scale, k);
  }

  /** With z * p == s and p positive, z > 1 exactly when s > p. */
  lemma AboveOneIffAbovePower(z: real, p: nat, s: int)
    requires p >= 1
    requires z * (p as real) == s as real
    ensures z > 1.0 <==> s > p
  {
    if z > 1.0 {
      assert z * (p as real) > 1.0 * (p as real);
    } else {
      assert z * (p as real) <= 1.0 * (p as real);
    }
  }

  lemma HalveStep(z: real, p: nat)
    ensures (z / 2.0) * ((2 * p) as real) == z * (p as real)
  {
  }

  /** Doubling a scale of at least 1 lowers the zoom by exactly one level. */
  lemma FindZoomDoubling(scale: int)
    requires scale >= 1
    ensures FindZoom(2 * scale) == FindZoom(scale) - 1
  {
    var k := Halvings(scale);
    HalvingsUnique(2 * scale, k + 1);
  }

  /** A larger scale denominator (a less detailed chart) never maps to a
      finer zoom. */
  lemma FindZoomAntitone(a: int, b: int)
    requires a <= b
    ensures FindZoom(b) <= FindZoom(a)
  {
    var ha := Halvings(a);
    var hb := Halvings(b);
    if ha > hb {
      Pow2Monotone(hb, ha - 1);
    }
  }

  lemma FindZoomExamples()
    ensures FindZoom(1) == 28 && FindZoom(2) == 27
    ensures FindZoom(3) == 26 && FindZoom(4) == 26
    ensures FindZoom(0) == 28 && FindZoom(-5) == 28
  {
    HalvingsUnique(2, 1);
    HalvingsUnique(3, 2);
    HalvingsUnique(4, 2);
  }

  /** Every scale a 32-bit int can hold maps to a zoom in [-3, 28]. */
  lemma FindZoomInt32Range(scale: int)
    requires scale <= 0x7FFF_FFFF
    ensures -3 <= FindZoom(scale) <= OneToOneZoom
  {
    assert Pow2(31) == 0x8000_0000 by { Pow2Value31(); }
    if Halvings(scale) > 31 {
      Pow2Monotone(31, Halvings(scale) - 1);
    }
  }

  lemma Pow2Value31()
    ensures Pow2(28) == 0x1000_0000
    ensures Pow2(31) == 0x8000_0000
  {
    assert Pow2(4) == 16;
    assert Pow2(8) == 256;
    assert Pow2(12) == 4096;
    assert Pow2(16) == 65536;
    assert Pow2(20) == 1048576;
    assert Pow2(24) == 16777216;
    assert Pow2(28) == 268435456;
  }

  /** The zoom pair a feature is visible at: (minZ, maxZ). */
  datatype ZRange = ZRange(minZ: int, maxZ: int)

  /** The zoom a positive scale bound maps to, or `otherwise` for a bound
      that is unset (0) or negative. */
  function BoundZoom(bound: int, otherwise: int): int {
    if bound > 0 then FindZoom(bound) else otherwise
  }

  /** calculateZRange: non-positive bounds keep the defaults 0 and 28, positive
      ones go through findZoom, and the pair is swapped when out of order. */
  function CalculateZRange(scamin: int, scamax: int): (r: ZRange)
    ensures r.minZ <= r.maxZ <= OneToOneZoom
    ensures multiset{r.minZ, r.maxZ} == multiset{BoundZoom(scamin, 0), BoundZoom(scamax, OneToOneZoom)}
    ensures scamin <= 0 && scamax <= 0 ==> r == ZRange(0, OneToOneZoom)
  {
    var minZ := BoundZoom(scamin, 0);
    var maxZ := BoundZoom(scamax, OneToOneZoom);
    if minZ > maxZ then ZRange(maxZ, minZ) else ZRange(minZ, maxZ)
  }

  /** S-57 writes SCAMIN as the larger denominator (visible from far out) and
      SCAMAX as the smaller one; given that order no swap happens and the
      range is exactly the two mapped zooms. The inverted order gives the
      same range. */
  lemma ZRangeOfOrderedBounds(scamin: int, scamax: int)
    requires 0 < scamax <= scamin
    ensures CalculateZRange(scamin, scamax) == ZRange(FindZoom(scamin), FindZoom(scamax))
    ensures CalculateZRange(scamax, scamin) == CalculateZRange(scamin, scamax)
  {
    FindZoomAntitone(scamax, scamin);
  }

  /** Only SCAMAX set: the range runs from 0 to its zoom. Only SCAMIN set:
      from its zoom up to 28. */
  lemma ZRangeOneBound(bound: int)
    requires bound > 0
    ensures FindZoom(bound) >= 0 ==> CalculateZRange(0, bound) == ZRange(0, FindZoom(bound))
    ensures FindZoom(bound) < 0 ==> CalculateZRange(0, bound) == ZRange(FindZoom(bound), 0)
    ensures CalculateZRange(bound, 0) == ZRange(FindZoom(bound), OneToOneZoom)
  {
  }

  /** A SCAMIN above 2^28 pushes minZ below zero: the range is not confined
      to [0, 28]. */
  lemma ZRangeCanGoNegative()
    ensures CalculateZRange(0x2000_0000, 0) == ZRange(-1, OneToOneZoom)
  {
    Pow2Value31();
    assert Pow2(29) == 0x2000_0000;
    HalvingsUnique(0x2000_0000, 29);
  }
}
